=== FILE: README.md ===
# Health-monitor sensor bridge and health assessment, in Dafny

The system has two halves, and this project models the logic of both.

- **The ESP32 sensor bridge** (`esp32.cpp`, `loop()`). It reads one line from
  the Arduino Uno over serial and trims it. It then finds six comma positions
  with a chain of `indexOf(',', previous + 1)` searches. The line is accepted
  when `firstComma > 0 && sixthComma > 0`. An accepted line is cut into seven
  text fields with `substring`. The bridge then builds a JSON body by string
  concatenation and posts it, but only while WiFi is connected.
- **The Flask server's health assessment** (`app.py`,
  `HealthConditionDetector.assess_health`). It fills each missing or null
  vital of a request with a fixed default. It runs the trained pipeline on the
  filled dict and collapses the decoded label to "Healthy" or "Unhealthy". Any
  failure is reported as "Unhealthy". The blood-pressure column of the
  training data is split with the regular expression `(\d+)/(\d+)`.

Modules:

- `ArduinoString`: the three members of the Arduino `String` class that the
  bridge uses, namely `trim()`, `indexOf(ch, from)` and `substring(left[, right])`.
  It also models the conversion of a signed index to an `unsigned int` parameter.
- `SensorLine`: the comma chain and the acceptance test, and the cut into
  `Fields`. `FormatLine` is the line format the parser inverts: seven fields
  joined by commas. `Commas` lists every comma position in order. It is the
  reference that the firmware's chain is proved against.
- `JsonText` and `SensorPayload`: the JSON text the bridge writes. Also the
  outcome of one pass of `loop()`: invalid format, WiFi not connected, or the
  posted body.
- `PyDict`: a Python `dict` with string keys, as its entries in insertion
  order. Assigning to a present key keeps its place, and a new key is
  appended at the end.
- `Vitals`: default filling on that ordered dict, with `FilledRef`, an
  entry-by-entry description, as an independent reference. Also the label
  collapse and the fail-safe assessment.
- `BloodPressure`: the leftmost match of `(\d+)/(\d+)` on one string, and the
  two numbers it yields.
- `Wrappers`: `Option`.

The acceptance test is weaker than the comment in front of it says. That
comment says the expected number of fields must be present. A failed search
returns -1, so the next search starts again at index 0, and only the first and
the sixth index are checked. A line is therefore accepted exactly when its
trimmed text does not start with a comma and holds 3, 4, or at least 6 commas
(`SensorLine.AcceptsIff`). "## Findings" logs this. The model keeps the
firmware's behaviour in `SensorLine.ParseLine`. `SensorLine.ParseLineStrict`
is the corrected test, which checks all six indices.

Key order matters on the server side. The filling loop overwrites a null
feature where it stands, but appends a missing one after the request's own
keys. The one-row frame takes its columns from that order, and a scaler
fitted on named features raises when the names come in a different order
(scikit-learn does so from version 1.2). So a feature sent as null and the
same feature left out fill to the same values but not always to the same
dict (`Vitals.MissingKeyMovesToEnd`). Under a pipeline that checks the column
order, a request listing all seven features in the trained order is
"Unhealthy" whenever its first feature is left out instead of sent as null
(`Vitals.MissingFirstFeatureUnhealthy`). The pipeline itself is a parameter,
so the assessment lemmas either hold for every pipeline or say which kind
they need.

## Model

| member | source | states |
|---|---|---|
| `ArduinoString.Trim` | esp32.cpp:31 | The trimmed line is never longer than the received one and has no whitespace at either end. |
| `ArduinoString.TrimSlice` | esp32.cpp:31 | Trimming keeps one contiguous slice of the received line and removes only whitespace before and after it. |
| `ArduinoString.TrimPadded` | esp32.cpp:31 | Whitespace around a core that has no whitespace at its ends is exactly what trimming removes. |
| `ArduinoString.TrimIdempotent` | esp32.cpp:31 | Trimming an already trimmed line changes nothing. |
| `ArduinoString.IndexOf` | esp32.cpp:41-46 | On a line without NUL characters, a search returns the first index at or after its start that holds the character, and -1 when no such index exists (including a start past the end). |
| `ArduinoString.AsUnsigned` | esp32.cpp:52-56 | An `int` index passed to `substring`'s `unsigned int` parameter becomes a value below 2^32 that is congruent to it modulo 2^32, so -1 becomes 4294967295. |
| `ArduinoString.AsUnsignedUnique` | esp32.cpp:52-56 | That value is the only one an `unsigned int` can hold that is congruent to the `int` modulo 2^32, which is the C++ conversion rule. |
| `ArduinoString.Substring` | esp32.cpp:51-56 | `substring(l, r)` is the slice between the bounds: they are swapped when `l > r`, the upper one is clamped to the length, and the result is empty when both are at or past the end. In every order of `l`, `r` and the length the result is determined: `s[l..r]`, `s[r..l]`, `s[l..]`, `s[r..]` or empty. |
| `ArduinoString.SubstringSymmetric` | esp32.cpp:51-56 | Swapping the two bounds of `substring` does not change the result. |
| `ArduinoString.SubstringFrom` | esp32.cpp:57 | `substring(l)` is everything from `l` on, or empty when `l` is at or past the end. |
| `SensorLine.CommaChain` | esp32.cpp:41-46 | The six searches give six indices, each of them -1 or the index of a comma of the trimmed line. |
| `SensorLine.CommaChainSteps` | esp32.cpp:41-46 | The first index is -1 exactly when the line has no comma. Each later search finds the next comma after the previous index, or -1 when none follows. After a -1 the chain starts over at the first comma. |
| `SensorLine.ChainMatchesRef` | esp32.cpp:41-46 | The chain walks the list of all comma positions in order. It gives -1 after the last comma and then starts over at the first. |
| `SensorLine.ChainSixCommas` | esp32.cpp:41-46 | On a line with at least six commas, the six indices are the first six comma positions. |
| `SensorLine.ChainStateSixth` | esp32.cpp:46-49 | The sixth search lands on a comma exactly when the line has 3, 4, or at least 6 commas. |
| `SensorLine.Accepts` | esp32.cpp:49 | An accepted line is non-empty and does not start with a comma, and both the first and the sixth search found a comma. Which lines these are is `AcceptsIff`. |
| `SensorLine.AcceptsIff` | esp32.cpp:41-49 | `firstComma > 0 && sixthComma > 0` holds exactly when the trimmed line does not start with a comma and has 3, 4, or at least 6 commas. So lines with 0, 1, 2 or 5 commas, and lines starting with a comma, are rejected. |
| `SensorLine.ParseLine` | esp32.cpp:30-57 | The parse of a received line gives fields exactly when the trimmed line passes the acceptance test, in the comma-count terms above. |
| `SensorLine.ParseLineEnds` | esp32.cpp:30-57 | An accepted line's temperature field is non-empty and starts with a non-space character. Its last field is empty or ends with a non-space character. |
| `SensorLine.Cut` | esp32.cpp:51-57 | Its own contract fixes only the first field, the text before the first index, and the last field, the text after the sixth index. The middle five are stated by `SevenFieldCut` for lines with at least six commas, by `ThreeCommaLineAccepted` for three-comma lines and by `FourCommaLineAccepted` for four-comma lines. |
| `SensorLine.SevenFieldCut` | esp32.cpp:51-57 | On a line with at least six commas and no leading comma, each of the first six fields is the text up to the next of the first six commas. The last field runs to the end of the trimmed line, further commas included. |
| `SensorLine.ParseJoinRoundTrip` | esp32.cpp:51-57 | On a line with at least six commas and no leading comma, joining the parsed fields with commas gives back the trimmed line exactly, and none of the first six fields holds a comma. |
| `SensorLine.FormatParseRoundTrip` | esp32.cpp:30-57 | A reading whose first six fields hold no comma, whose first field is non-empty and whose outer ends are not whitespace is parsed back to the same reading. |
| `SensorLine.FormatLineShape` | esp32.cpp:30-49 | Such a formatted reading is unchanged by trimming, has no leading comma and has at least six commas, so the acceptance test passes it. |
| `SensorLine.FormatInjective` | esp32.cpp:51-57 | Two readings whose first six fields hold no comma give the same line only if they are the same reading. |
| `SensorLine.AcceptsAllSixIff` | esp32.cpp:48-49 | Checking that all six indices are past index 0 accepts exactly the lines that do not start with a comma and have at least six commas. |
| `SensorLine.ParseLineStrict` | esp32.cpp:48-57 | The corrected parse accepts exactly the lines with no leading comma and at least six commas. Its fields then join back to the trimmed line, and none of the first six holds a comma. |
| `SensorLine.ThreeCommaLineAccepted` | esp32.cpp:41-57 | A line with three commas and no leading comma passes the firmware's test. Its `steps` field repeats the temperature text, `bpSystolic` repeats the heart-rate text, and `bpDiastolic` holds a comma. The corrected parse rejects the line. |
| `SensorLine.FourCommaLineAccepted` | esp32.cpp:41-57 | A line with four commas and no leading comma passes the firmware's test. Its first five fields are the line's five comma-separated pieces, and `steps` holds no comma. `bpSystolic` repeats the temperature text, and `bpDiastolic` is everything after the first comma. The corrected parse rejects the line. |
| `SensorPayload.BuildPayload` | esp32.cpp:67-75 | The JSON body begins with `{` and ends with `}`. |
| `SensorPayload.FirmwareKeyQuoted` | esp32.cpp:68-74 | Each key literal the firmware writes is the key between quotes, followed by a colon. |
| `SensorPayload.PayloadShape` | esp32.cpp:68-74 | The body's members carry the seven keys temperature, heartRate, spo2, ecgStatus, steps, bpSystolic and bpDiastolic, in that order. Only ecgStatus is a string, and it holds the ECG field itself. |
| `SensorPayload.PayloadIsObject` | esp32.cpp:67-75 | The hand-concatenated body equals the JSON object of those members, with the members separated by commas. |
| `SensorPayload.EcgStatusVerbatim` | esp32.cpp:71 | The ECG field appears in the body between quotes exactly as received, with no escaping. |
| `SensorPayload.HandleLine` | esp32.cpp:49-91 | A rejected line gives "invalid data format" and builds no body. This always happens when the trimmed line has no comma or starts with one. An accepted line is dropped when WiFi is down. Otherwise the posted body is the JSON object of the parsed fields. |
| `PyDict.Set` | app.py:58 | After `d[k] = v`, `k` reads as `v` and every other key reads as before. A present key keeps its place in the key order and a new key is appended. A dict stays free of repeated keys. |
| `Vitals.DefaultsTable` | app.py:44-53 | The default table covers exactly the seven expected features, and no default is null. |
| `Vitals.NewKeys` | app.py:56-58 | The keys the loop appends are exactly the listed keys not already present. |
| `Vitals.FillKey` | app.py:57-58 | One turn of the loop: a missing key is appended and a present one keeps its place. The key then reads as its default if it was missing or null, and as before otherwise. Every other key is untouched. |
| `Vitals.FillKeys` | app.py:56-58 | After the filling loop the request's keys come first, in their order, followed by the missing listed keys in the order of the list. |
| `Vitals.FillKeysValues` | app.py:56-58 | After the filling loop every listed key is present and not null, and a key that was missing or null holds exactly its default. Every other key reads as before. |
| `Vitals.FillKeysMatchesRef` | app.py:56-58 | On a dict, the loop gives the entry-by-entry reference: each entry of the request with a null listed key set to its default, then one entry per missing listed key. |
| `Vitals.Fill` | app.py:44-58 | Filling keeps the request's keys in their order and appends the missing features in the order of the expected-feature list. |
| `Vitals.FillValues` | app.py:44-58 | After filling, all seven features are present and not null. A feature that was missing or null holds exactly its default (75, 98, 5000, 7.0, 2000, 120 or 80). Every other key reads as before. |
| `Vitals.FillMatchesRef` | app.py:44-58 | Filling a request gives the entry-by-entry reference for the seven features and their defaults. |
| `Vitals.FillIdempotent` | app.py:56-58 | Filling an already filled dict changes nothing, neither a value nor the order. |
| `Vitals.NullSameAsDefault` | app.py:57-58 | A feature sent as null and the same feature sent as its default fill to the same dict, order included. |
| `Vitals.NullSameEntriesAsMissing` | app.py:56-58 | A feature sent as null and the same feature left out fill to the same keys with the same values. |
| `Vitals.MissingKeyMovesToEnd` | app.py:56-60 | The order can differ: a null feature in first place stays first, while the same request without it starts with its second key. The filled dicts differ. |
| `Vitals.Collapse` | app.py:65-66 | The outcome is "Healthy" exactly when the decoded label is "Healthy", "Fit" or "Normal", and "Unhealthy" otherwise. |
| `Vitals.AssessHealth` | app.py:42-70 | The result is always "Healthy" or "Unhealthy". It is "Healthy" exactly when the body is an object and the pipeline returns a healthy label for the filled dict, key order included. A body that is not an object, or a failing pipeline, gives "Unhealthy". |
| `Vitals.SameFillSameAssessment` | app.py:56-66 | The assessment of an object depends only on its filled dict, order included. |
| `Vitals.SameAnswerSameAssessment` | app.py:60-66 | Two objects for which the pipeline gives the same answer on their filled dicts get the same assessment. |
| `Vitals.AssessNullSameAsDefault` | app.py:56-66 | A feature sent as null or as its default gets the same assessment, whatever the pipeline does. |
| `Vitals.AssessMissingSameAsNull` | app.py:56-66 | For a pipeline that ignores column order, a feature left out gets the same assessment as the feature sent as null or as its default. |
| `Vitals.FullRequestKeepsOrder` | app.py:56-60 | A request listing the seven features in the trained order keeps that order when filled, whichever of them are null. |
| `Vitals.MissingFirstFeatureMoves` | app.py:56-60 | Leaving out the first feature of such a request puts the filled columns out of the trained order. |
| `Vitals.MissingFirstFeatureUnhealthy` | app.py:56-70 | Under a pipeline that raises on columns out of the trained order, such a request is assessed from the prediction, but the same request with "Heart Rate" left out is always "Unhealthy". |
| `BloodPressure.DigitsEnd` | app.py:18 | The greedy `\d+` from a position ends at the first non-digit after it. Every position in between is a digit. |
| `BloodPressure.MatchUnique` | app.py:18 | At a given start there is at most one match: the slash and the end of the match are determined. |
| `BloodPressure.MatchFrom` | app.py:18 | The matcher at one start position finds the match there exactly when one exists. |
| `BloodPressure.Search` | app.py:18 | The search returns the leftmost start, at or after its starting point, at which the pattern matches, or nothing when it matches nowhere there. |
| `BloodPressure.Extract` | app.py:18 | The extraction gives a value exactly when the pattern occurs somewhere. The value is the two digit runs of the leftmost match, read as decimal numbers. |
| `BloodPressure.NatToString` | app.py:18 | The decimal text of a number is a non-empty digit string without leading zeros whose value is that number. |
| `BloodPressure.ExtractRoundTrip` | app.py:18 | A reading written as "S/D" is read back as (S, D). |
| `BloodPressure.ExtractInText` | app.py:18 | A reading with only non-digits before it, and no digit directly after it, is found inside surrounding text. |
| `BloodPressure.ExtractExample` | app.py:18 | "120/80" gives a systolic value of 120 and a diastolic value of 80. |

## Left out

- Serial input and output, WiFi and HTTP (esp32.cpp:1-29, 33, 59-66, 77-88) are hardware and network I/O. A received line is a parameter. Whether WiFi is connected is a boolean parameter. The posted body is returned rather than sent, and the printed messages are named by `SensorPayload.Outcome`.
- `toFloat`, `toInt`, `String(x)` and `String(x, 1)` (esp32.cpp:51-57, 68-74) are Arduino numeric parsing and float formatting. They are the opaque `SensorPayload.Conversions` parameter, and the fields stay text.
- `ArduinoString` models the `String` members the firmware calls (`trim`, `indexOf`, `substring`) as the ESP32 Arduino core implements them in WString.cpp. The swap, clamp and past-the-end cases are that implementation's behaviour, not documented guarantees. The rest of the class is left out.
- The firmware keeps comma indices in a 32-bit `int`. The model uses unbounded integers, so lines of 2^31 characters or more are outside the model.
- Training, scaling, decision-tree prediction and label decoding (app.py:13-40, 60-63) are foreign library calls with floating-point numerics. They are one opaque `classify` function from the filled dict, with its key order, to an optional label, where `None` stands for an exception. Whether a pipeline checks the column order depends on the scikit-learn version, so the model keeps it a parameter. `Vitals.ColumnCheck` is the pipeline that checks it. The trained column order comes from the header of the training data, which is not part of this model; `ColumnCheck` takes it to be the order of `expected_keys`.
- The error message printed by `assess_health` (app.py:69) is left out.
- `assess_health` mutates the caller's dictionary in place. The model returns the filled dict as a new value.
- Vitals.AssessMissingSameAsNull: a feature left out and the same feature sent as null get the same assessment only for a pipeline that ignores column order. A left-out feature is appended at the end, so a pipeline that checks the order can answer differently (`Vitals.MissingFirstFeatureUnhealthy`).
- A JSON object with a repeated key decodes in Python to one entry, while a `Vitals.Value` object could hold both. Reads go to the first entry, and the lemmas about whole dicts assume no repeated key (`PyDict.IsDict`), as every Python dict satisfies.
- ArduinoString.IndexOf: the Arduino core searches with `strchr`, which stops at a NUL character. A line holding a NUL before the comma it searches for would report -1 there, and `readStringUntil` does keep NUL characters. The model searches the whole line, so lines with NUL characters are outside the model. Characters also stand for the line's bytes one to one.
- SensorLine.Cut: its own contract fixes only the first and the last field. The middle five are stated for every line the test accepts: those with at least six commas (`SensorLine.SevenFieldCut`), three commas (`SensorLine.ThreeCommaLineAccepted`) and four commas (`SensorLine.FourCommaLineAccepted`). `FourCommaLineAccepted` requires a trimmed line shorter than 2^31 characters, because its `steps` field is cut with the upper bound 4294967295; longer lines are outside the model, as the line on 32-bit indices above says.
- Flask routing, CORS, and JSON request and response handling (app.py:1-10, 72-95) are left out. So are the `/live-data` generator (app.py:81-92), which depends on randomness, and `website/app.py`, a database wrapper.
- BloodPressure.Extract: `\d` is modelled as the ASCII digits 0-9, while Python's `\d` also matches other Unicode decimal digits. The values are natural numbers, not the floats that `astype(float)` gives, so rounding above 2^53 is not modelled. The extraction runs on one string, not on a whole DataFrame column.

## Findings

| source | as written | input that shows it | evidently intended | confidence | as-written member | corrected member |
|---|---|---|---|---|---|---|
| esp32.cpp:41-49 | Only the first and sixth search results are checked, and a failed search restarts the next one at index 0. So lines with 3 or 4 commas pass the test. With 3 commas the last three fields are cut from the start of the line again; with 4 commas the last two are. | `36.5,72,98,Normal` gives steps `36.5`, bpSystolic `72` and bpDiastolic `98,Normal`; `36.5,72,98,Normal,500` gives bpSystolic `36.5` and bpDiastolic `72,98,Normal,500`. | Accept only lines with at least six commas: every one of the six searches finds a comma past index 0. | not executed | `SensorLine.ThreeCommaLineAccepted`, `SensorLine.FourCommaLineAccepted` | `SensorLine.ParseLineStrict` |

=== FILE: arduino_string.dfy ===
/**
 The three members of the Arduino `String` class the sensor bridge relies on:
 `trim()`, `indexOf(ch, from)` and `substring(left[, right])`. Strings are
 character sequences; indices that the firmware keeps in a signed `int` and
 hands to an `unsigned int` parameter go through `AsUnsigned`.
 */
module ArduinoString {

  /** `isspace` in the C locale: space, tab, newline, vertical tab, form feed, carriage return. */
  predicate IsSpace(c: char) {
    c == ' ' || c == '\t' || c == '\n' || c == '\U{B}' || c == '\U{C}' || c == '\r'
  }

  predicate AllSpace(s: string) {
    forall k :: 0 <= k < |s| ==> IsSpace(s[k])
  }

  /** No whitespace at either end (vacuously true of the empty string). */
  predicate Trimmed(s: string) {
    s == [] || (!IsSpace(s[0]) && !IsSpace(s[|s| - 1]))
  }

  /** Drops the leading whitespace. */
  function TrimStart(s: string): (r: string)
    ensures |r| <= |s| && r == s[|s| - |r|..]
    ensures AllSpace(s[..|s| - |r|])
    ensures r == [] || !IsSpace(r[0])
  {
    if |s| > 0 && IsSpace(s[0]) then
      var r := TrimStart(s[1..]);
      assert s[..|s| - |r|] == [s[0]] + s[1..][..|s| - 1 - |r|];
      assert s[1..][|s| - 1 - |r|..] == s[|s| - |r|..];
      r
    else
      assert s[..0] == [];
      s
  }

  /** Drops the trailing whitespace. */
  function TrimEnd(s: string): (r: string)
    ensures |r| <= |s| && r == s[..|r|]
    ensures AllSpace(s[|r|..])
    ensures r == [] || !IsSpace(r[|r| - 1])
  {
    if |s| > 0 && IsSpace(s[|s| - 1]) then
      var r := TrimEnd(s[..|s| - 1]);
      assert s[|r|..] == s[..|s| - 1][|r|..] + [s[|s| - 1]];
      assert s[..|s| - 1][..|r|] == s[..|r|];
      r
    else
      assert s[|s|..] == [];
      s
  }

  /**
   `String::trim()`: the leading and the trailing whitespace removed. The
   result is never longer than the input and has no whitespace at either end.
   */
  function Trim(s: string): (r: string)
    ensures |r| <= |s| && Trimmed(r)
  {
    TrimEnd(TrimStart(s))
  }

  /** `r` is the slice `s[lo..lo + |r|]` and only whitespace surrounds it in `s`. */
  predicate PaddedSliceAt(s: string, r: string, lo: nat) {
    lo + |r| <= |s| && r == s[lo..lo + |r|] && AllSpace(s[..lo]) && AllSpace(s[lo + |r|..])
  }

  /** `Trim` keeps a slice of its input with nothing but whitespace around it. */
  lemma TrimSlice(s: string)
    ensures exists lo :: PaddedSliceAt(s, Trim(s), lo)
  {
    var a := TrimStart(s);
    var r := TrimEnd(a);
    var lo := |s| - |a|;
    assert r == Trim(s);
    SuffixSlices(s, lo, |r|);
    assert AllSpace(s[..lo]) && AllSpace(s[lo + |r|..]);
    assert PaddedSliceAt(s, r, lo);
  }

  /** Cutting a suffix `s[lo..]` at `m` gives the slices of `s` at `lo + m`. */
  lemma SuffixSlices(s: string, lo: nat, m: nat)
    requires lo + m <= |s|
    ensures s[lo..][..m] == s[lo..lo + m]
    ensures s[lo..][m..] == s[lo + m..]
  {
  }

  /**
   `String::indexOf(ch, from)`: the first index at or after `from` holding
   `c`, or -1 when there is none (in particular when `from` is past the end).
   */
  function IndexOf(s: string, c: char, from: nat): (r: int)
    ensures r == -1 || (from <= r < |s| && s[r] == c)
    ensures r == -1 ==> forall k :: from <= k < |s| ==> s[k] != c
    ensures r != -1 ==> forall k :: from <= k < r ==> s[k] != c
    decreases |s| - from
  {
    if from >= |s| then -1
    else if s[from] == c then from
    else IndexOf(s, c, from + 1)
  }

  /**
   The value a C++ `int` takes when it is passed to an `unsigned int`
   parameter (two's complement, 32 bits). The firmware only ever passes -1 as
   a negative index, which becomes 4294967295.
   */
  function AsUnsigned(i: int): (u: nat)
    requires i >= -0x8000_0000
    ensures i < 0x8000_0000 ==> u < 0x1_0000_0000
    ensures (u - i) % 0x1_0000_0000 == 0
  {
    if i < 0 then i + 0x1_0000_0000 else i
  }

  /**
   The conversion is the C++ rule: of all values an `unsigned int` can hold,
   the result is the only one congruent to `i` modulo 2^32.
   */
  lemma AsUnsignedUnique(i: int, v: int)
    requires -0x8000_0000 <= i < 0x8000_0000
    requires 0 <= v < 0x1_0000_0000 && (v - i) % 0x1_0000_0000 == 0
    ensures v == AsUnsigned(i)
  {
  }

  /**
   `String::substring(left, right)`: the bounds are swapped when `left >
   right`, the result is empty when the lower bound is at or past the end,
   and the upper bound is clamped to the length.
   */
  function Substring(s: string, left: nat, right: nat): (r: string)
    ensures left <= right <= |s| ==> r == s[left..right]
    ensures right <= left <= |s| ==> r == s[right..left]
    ensures left <= |s| <= right ==> r == s[left..]
    ensures right <= |s| <= left ==> r == s[right..]
    ensures |s| <= left && |s| <= right ==> r == []
  {
    var lo := if left <= right then left else right;
    var hi := if left <= right then right else left;
    if lo >= |s| then [] else s[lo..if hi < |s| then hi else |s|]
  }

  /** The order of the two bounds does not matter. */
  lemma SubstringSymmetric(s: string, left: nat, right: nat)
    ensures Substring(s, left, right) == Substring(s, right, left)
  {
  }

  /** `String::substring(left)`: everything from `left` to the end. */
  function SubstringFrom(s: string, left: nat): (r: string)
    ensures left <= |s| ==> r == s[left..]
    ensures left >= |s| ==> r == []
  {
    Substring(s, left, |s|)
  }

  /** Leading whitespace in front of a non-space start is exactly what `TrimStart` drops. */
  lemma {:induction false} TrimStartPadded(pre: string, x: string)
    requires AllSpace(pre)
    requires x == [] || !IsSpace(x[0])
    ensures TrimStart(pre + x) == x
    decreases |pre|
  {
    if pre == [] {
      assert pre + x == x;
    } else {
      assert (pre + x)[0] == pre[0];
      assert (pre + x)[1..] == pre[1..] + x;
      TrimStartPadded(pre[1..], x);
    }
  }

  /** Trailing whitespace after a non-space end is exactly what `TrimEnd` drops. */
  lemma {:induction false} TrimEndPadded(x: string, post: string)
    requires AllSpace(post)
    requires x == [] || !IsSpace(x[|x| - 1])
    ensures TrimEnd(x + post) == x
    decreases |post|
  {
    if post == [] {
      assert x + post == x;
    } else {
      var s := x + post;
      assert s[|s| - 1] == post[|post| - 1];
      assert s[..|s| - 1] == x + post[..|post| - 1];
      TrimEndPadded(x, post[..|post| - 1]);
    }
  }

  /** Whitespace around an already trimmed core is exactly what `Trim` removes. */
  lemma TrimPadded(pre: string, core: string, post: string)
    requires AllSpace(pre) && AllSpace(post) && Trimmed(core)
    ensures Trim(pre + core + post) == core
  {
    assert pre + core + post == pre + (core + post);
    if core == [] {
      assert core + post == post;
      assert pre + post == (pre + post) + [];
      TrimStartPadded(pre + post, []);
    } else {
      assert (core + post)[0] == core[0];
      TrimStartPadded(pre, core + post);
      TrimEndPadded(core, post);
    }
  }

  /** Trimming twice is the same as trimming once. */
  lemma TrimIdempotent(s: string)
    ensures Trim(Trim(s)) == Trim(s)
  {
    TrimPadded([], Trim(s), []);
    assert [] + Trim(s) + [] == Trim(s);
  }
}

=== FILE: blood_pressure.dfy ===
/**
 The blood-pressure column of the training data holds readings such as
 "120/80". They are split with the regular expression `(\d+)/(\d+)`: the
 leftmost place where a run of digits, a slash and a second run of digits
 occur gives the systolic and the diastolic value; a string without such a
 place gives no reading.
 */
module BloodPressure {
  import opened Wrappers

  predicate IsDigit(c: char) {
    '0' <= c <= '9'
  }

  /** Every position in `[lo, hi)` of `s` holds a digit. */
  predicate DigitsBetween(s: string, lo: nat, hi: nat)
    requires lo <= hi <= |s|
  {
    forall t :: lo <= t < hi ==> IsDigit(s[t])
  }

  predicate AllDigits(ds: string) {
    forall t :: 0 <= t < |ds| ==> IsDigit(ds[t])
  }

  /**
   The regular expression matches `s[i..k]` with its slash at `j`: digits in
   `[i, j)`, the slash at `j`, digits in `[j + 1, k)`, and `k` ends the
   second run (the greedy `\d+` takes every digit that follows).
   */
  predicate MatchAt(s: string, i: nat, j: nat, k: nat) {
    && i < j < k <= |s|
    && j + 1 < k
    && DigitsBetween(s, i, j)
    && s[j] == '/'
    && DigitsBetween(s, j + 1, k)
    && (k == |s| || !IsDigit(s[k]))
  }

  /** The end of the run of digits that starts at `i` (`i` itself when there is none). */
  function DigitsEnd(s: string, i: nat): (e: nat)
    requires i <= |s|
    ensures i <= e <= |s|
    ensures DigitsBetween(s, i, e)
    ensures e == |s| || !IsDigit(s[e])
    decreases |s| - i
  {
    if i < |s| && IsDigit(s[i]) then DigitsEnd(s, i + 1) else i
  }

  /** A run of digits followed by a non-digit (or the end) ends exactly where `DigitsEnd` says. */
  lemma {:induction false} DigitsEndUnique(s: string, i: nat, e: nat)
    requires i <= e <= |s|
    requires DigitsBetween(s, i, e)
    requires e == |s| || !IsDigit(s[e])
    ensures DigitsEnd(s, i) == e
    decreases e - i
  {
    if i < e {
      assert IsDigit(s[i]);
      DigitsEndUnique(s, i + 1, e);
    }
  }

  /** A match at `i` can only have its slash where the first run ends and its end where the second run ends. */
  lemma MatchEnds(s: string, i: nat)
    requires i <= |s|
    ensures forall j: nat, k: nat :: MatchAt(s, i, j, k) ==> j == DigitsEnd(s, i) && k == DigitsEnd(s, j + 1)
  {
    forall j: nat, k: nat | MatchAt(s, i, j, k)
      ensures j == DigitsEnd(s, i) && k == DigitsEnd(s, j + 1)
    {
      DigitsEndUnique(s, i, j);
      DigitsEndUnique(s, j + 1, k);
    }
  }

  /** The matcher tried at one start position: where the slash and the end of the match are. */
  function MatchFrom(s: string, i: nat): (r: Option<(nat, nat)>)
    requires i <= |s|
    ensures r.Some? ==> MatchAt(s, i, r.value.0, r.value.1)
    ensures r.None? ==> forall j, k :: !MatchAt(s, i, j, k)
  {
    MatchEnds(s, i);
    var j := DigitsEnd(s, i);
    if i < j < |s| && s[j] == '/' then
      var k := DigitsEnd(s, j + 1);
      if j + 1 < k then Some((j, k)) else None
    else
      None
  }

  /** At a given start the match, when there is one, is unique. */
  lemma MatchUnique(s: string, i: nat, j: nat, k: nat, j': nat, k': nat)
    requires MatchAt(s, i, j, k) && MatchAt(s, i, j', k')
    ensures j == j' && k == k'
  {
    DigitsEndUnique(s, i, j);
    DigitsEndUnique(s, i, j');
    DigitsEndUnique(s, j + 1, k);
    DigitsEndUnique(s, j + 1, k');
  }

  /**
   The regular-expression search from `from` on: the first start position at
   which the pattern matches, with its slash and end.
   */
  function Search(s: string, from: nat): (r: Option<(nat, nat, nat)>)
    requires from <= |s|
    ensures r.Some? ==> from <= r.value.0 && MatchAt(s, r.value.0, r.value.1, r.value.2)
    ensures r.Some? ==> forall i, j, k :: from <= i < r.value.0 ==> !MatchAt(s, i, j, k)
    ensures r.None? ==> forall i, j, k :: from <= i ==> !MatchAt(s, i, j, k)
    decreases |s| - from
  {
    if from == |s| then None
    else
      match MatchFrom(s, from)
      case Some((j, k)) => Some((from, j, k))
      case None => Search(s, from + 1)
  }

  lemma DigitsSlice(s: string, lo: nat, hi: nat)
    requires lo <= hi <= |s| && DigitsBetween(s, lo, hi)
    ensures AllDigits(s[lo..hi])
  {
    forall t | 0 <= t < hi - lo
      ensures IsDigit(s[lo..hi][t])
    {
      assert s[lo..hi][t] == s[lo + t];
    }
  }

  /** The decimal value of a string of digits. */
  function DigitsValue(ds: string): nat
    requires AllDigits(ds)
  {
    if ds == [] then 0
    else DigitsValue(ds[..|ds| - 1]) * 10 + (ds[|ds| - 1] - '0') as nat
  }

  /**
   `str.extract(r'(\d+)/(\d+)')` followed by `astype(float)` on one reading:
   the values of the two digit runs of the leftmost match, or `None` (a
   missing value) when the pattern does not occur.
   */
  function Extract(s: string): (r: Option<(nat, nat)>)
    ensures r.None? <==> forall i, j, k :: !MatchAt(s, i, j, k)
    ensures r.Some? ==> exists i: nat, j: nat, k: nat ::
      && MatchAt(s, i, j, k)
      && r.value == (DigitsValue(s[i..j]), DigitsValue(s[j + 1..k]))
      && (forall i': nat, j': nat, k': nat :: i' < i ==> !MatchAt(s, i', j', k'))
  {
    match Search(s, 0)
    case None => None
    case Some((i, j, k)) =>
      DigitsSlice(s, i, j);
      DigitsSlice(s, j + 1, k);
      var r := (DigitsValue(s[i..j]), DigitsValue(s[j + 1..k]));
      assert MatchAt(s, i, j, k) && (forall i': nat, j': nat, k': nat :: i' < i ==> !MatchAt(s, i', j', k'));
      Some(r)
  }

  function DigitChar(d: nat): (c: char)
    requires d < 10
    ensures IsDigit(c) && (c - '0') as nat == d
  {
    ('0' as int + d) as char
  }

  /** The decimal text of a natural number, without leading zeros. */
  function NatToString(n: nat): (ds: string)
    ensures |ds| > 0 && AllDigits(ds)
    ensures DigitsValue(ds) == n
    ensures |ds| > 1 ==> ds[0] != '0'
  {
    if n < 10 then [DigitChar(n)]
    else
      var ds := NatToString(n / 10) + [DigitChar(n % 10)];
      assert ds[..|ds| - 1] == NatToString(n / 10);
      ds
  }

  /** A reading written as "S/D" is read back as (S, D). */
  lemma {:induction false} ExtractRoundTrip(sys: nat, dia: nat)
    ensures Extract(NatToString(sys) + "/" + NatToString(dia)) == Some((sys, dia))
  {
    var a, b := NatToString(sys), NatToString(dia);
    var s := a + "/" + b;
    var j, k := |a|, |s|;
    assert s[..j] == a && s[j + 1..] == b;
    assert MatchAt(s, 0, j, k);
    var r := Search(s, 0);
    assert r.Some? && r.value.0 == 0;
    MatchUnique(s, 0, j, k, r.value.1, r.value.2);
    assert s[0..j] == a && s[j + 1..k] == b;
  }

  /**
   A reading surrounded by text is found when nothing before it is a digit
   and it is not followed by a further digit: "BP 130/85 mmHg" gives (130, 85).
   */
  lemma {:induction false} ExtractInText(pre: string, sys: nat, dia: nat, post: string)
    requires forall t :: 0 <= t < |pre| ==> !IsDigit(pre[t])
    requires post == [] || !IsDigit(post[0])
    ensures Extract(pre + NatToString(sys) + "/" + NatToString(dia) + post) == Some((sys, dia))
  {
    var a, b := NatToString(sys), NatToString(dia);
    var s := pre + a + "/" + b + post;
    var i, j, k := |pre|, |pre| + |a|, |pre| + |a| + 1 + |b|;
    assert s[i..j] == a && s[j + 1..k] == b;
    assert DigitsBetween(s, i, j) && DigitsBetween(s, j + 1, k);
    assert k == |s| || s[k] == post[0];
    assert MatchAt(s, i, j, k);
    forall i': nat, j': nat, k': nat | i' < i
      ensures !MatchAt(s, i', j', k')
    {
      assert s[i'] == pre[i'];
    }
    var r := Search(s, 0);
    assert r.Some? && r.value.0 == i;
    MatchUnique(s, i, j, k, r.value.1, r.value.2);
  }

  /** "120/80" gives a systolic value of 120 and a diastolic value of 80. */
  lemma ExtractExample()
    ensures Extract("120/80") == Some((120, 80))
  {
    assert NatToString(1) == "1";
    assert NatToString(12) == "12";
    assert NatToString(120) == "120";
    assert NatToString(8) == "8";
    assert NatToString(80) == "80";
    assert "120/80" == NatToString(120) + "/" + NatToString(80);
    ExtractRoundTrip(120, 80);
  }
}

=== FILE: json_text.dfy ===
/**
 The JSON text the sensor bridge writes by hand: flat objects whose members
 are numbers (written as their text) or strings (written between quotes,
 without escaping).
 */
module JsonText {
  /** A JSON value as the firmware writes it: a number as its text, a string between quotes. */
  datatype JsonValue = Number(text: string) | Text(chars: string)

  /** Strings are written between quotes exactly as they are: nothing is escaped. */
  function Render(v: JsonValue): string {
    match v
    case Number(t) => t
    case Text(s) => "\"" + s + "\""
  }

  function Member(key: string, v: JsonValue): string {
    "\"" + key + "\":" + Render(v)
  }

  /** Members written one after another, separated by commas. */
  function Members(ms: seq<(string, JsonValue)>): string {
    if |ms| == 0 then ""
    else if |ms| == 1 then Member(ms[0].0, ms[0].1)
    else Members(ms[..|ms| - 1]) + "," + Member(ms[|ms| - 1].0, ms[|ms| - 1].1)
  }

  /** A flat JSON object with its members in the given order. */
  function WriteObject(ms: seq<(string, JsonValue)>): string {
    "{" + Members(ms) + "}"
  }

  /** Appending the firmware's pieces for the `k`-th member extends the object by that member. */
  lemma AppendMember(ms: seq<(string, JsonValue)>, k: nat, acc: string, key: string, keyText: string)
    requires 1 <= k < |ms| && ms[k].0 == key
    requires acc == "{" + Members(ms[..k]) + ","
    requires keyText == "\"" + key + "\":"
    ensures acc + keyText + Render(ms[k].1) + "," == "{" + Members(ms[..k + 1]) + ","
  {
    MembersSnoc(ms, k);
    Regroup(Members(ms[..k]), keyText, Render(ms[k].1));
  }

  /** `Members` of a longer prefix adds one comma and one member. */
  lemma MembersSnoc(ms: seq<(string, JsonValue)>, k: nat)
    requires 1 <= k < |ms|
    ensures Members(ms[..k + 1]) == Members(ms[..k]) + "," + Member(ms[k].0, ms[k].1)
  {
    var p := ms[..k + 1];
    MembersLast(p);
    assert p[..|p| - 1] == ms[..k];
  }

  lemma MembersLast(p: seq<(string, JsonValue)>)
    requires |p| >= 2
    ensures Members(p) == Members(p[..|p| - 1]) + "," + Member(p[|p| - 1].0, p[|p| - 1].1)
  {
  }

  lemma Regroup(m: string, keyText: string, t: string)
    ensures "{" + m + "," + keyText + t + "," == "{" + (m + "," + (keyText + t)) + ","
  {
    calc {
      "{" + m + "," + keyText + t + ",";
      { Assoc("{" + m + ",", keyText, t); }
      "{" + m + "," + (keyText + t) + ",";
      { Assoc("{" + m, ",", keyText + t); Assoc("{", m + ",", keyText + t); Assoc("{", m, ","); }
      "{" + (m + "," + (keyText + t)) + ",";
    }
  }

  lemma Assoc(a: string, b: string, c: string)
    ensures a + b + c == a + (b + c)
  {
  }

  /** A string value written as its opening quote, its text and its closing quote is its rendering. */
  lemma QuoteSplit(acc: string, e: string)
    ensures acc + "\"" + e + "\"," == acc + ("\"" + e + "\"") + ","
  {
    assert "\"," == "\"" + ",";
    calc {
      acc + "\"" + e + "\",";
      { Assoc(acc + "\"" + e, "\"", ","); }
      acc + "\"" + e + "\"" + ",";
      { Assoc(acc, "\"", e); Assoc(acc, "\"" + e, "\""); }
      acc + ("\"" + e + "\"") + ",";
    }
  }

  /** Appending the firmware's pieces for the last member and the closing brace completes the object. */
  lemma CloseObject(ms: seq<(string, JsonValue)>, acc: string, key: string, keyText: string)
    requires 2 <= |ms| && ms[|ms| - 1].0 == key
    requires acc == "{" + Members(ms[..|ms| - 1]) + ","
    requires keyText == "\"" + key + "\":"
    ensures acc + keyText + Render(ms[|ms| - 1].1) + "}" == WriteObject(ms)
  {
    var m, t := Members(ms[..|ms| - 1]), Render(ms[|ms| - 1].1);
    assert Members(ms) == m + "," + (keyText + t);
    calc {
      acc + keyText + t + "}";
      { Assoc(acc, keyText, t); }
      acc + (keyText + t) + "}";
      { Assoc("{" + m, ",", keyText + t); Assoc("{", m + ",", keyText + t); Assoc("{", m, ","); }
      "{" + (m + "," + (keyText + t)) + "}";
    }
  }
}

=== FILE: py_dict.dfy ===
/**
 A Python `dict` with string keys, kept as its entries in insertion order.
 Reading a key looks at its first entry. Assigning to a key that is present
 replaces that entry's value in place; assigning to a new key appends an
 entry at the end. A dict built by assignment never holds a key twice
 (`IsDict`).
 */
module PyDict {

  type Dict<V> = seq<(string, V)>

  /** The keys in iteration order. */
  function Keys<V>(d: Dict<V>): seq<string> {
    seq(|d|, i requires 0 <= i < |d| => d[i].0)
  }

  predicate Distinct(ks: seq<string>) {
    forall i, j :: 0 <= i < j < |ks| ==> ks[i] != ks[j]
  }

  /** No key occurs twice. */
  predicate IsDict<V>(d: Dict<V>) {
    Distinct(Keys(d))
  }

  function FindFrom<V>(d: Dict<V>, k: string, n: nat): (i: int)
    requires n <= |d|
    ensures i == -1 ==> forall j :: n <= j < |d| ==> d[j].0 != k
    ensures i != -1 ==> n <= i < |d| && d[i].0 == k && forall j :: n <= j < i ==> d[j].0 != k
    decreases |d| - n
  {
    if n == |d| then -1
    else if d[n].0 == k then n
    else FindFrom(d, k, n + 1)
  }

  /** The position of the first entry for `k`, or -1 when `k` is not a key. */
  function Find<V>(d: Dict<V>, k: string): (i: int)
    ensures i == -1 <==> k !in Keys(d)
    ensures i != -1 ==> 0 <= i < |d| && d[i].0 == k && forall j :: 0 <= j < i ==> d[j].0 != k
  {
    var i := FindFrom(d, k, 0);
    assert i != -1 ==> Keys(d)[i] == k;
    i
  }

  /** `d[k]`. */
  function Get<V>(d: Dict<V>, k: string): V
    requires k in Keys(d)
  {
    d[Find(d, k)].1
  }

  /**
   `d[k] = v`: afterwards `k` reads as `v` and every other key reads as
   before. A present key keeps its place; a new key goes to the end.
   */
  function Set<V>(d: Dict<V>, k: string, v: V): (r: Dict<V>)
    ensures Keys(r) == if k in Keys(d) then Keys(d) else Keys(d) + [k]
    ensures k in Keys(r) && Get(r, k) == v
    ensures forall k' :: k' != k && k' in Keys(d) ==> Get(r, k') == Get(d, k')
    ensures IsDict(d) ==> IsDict(r)
  {
    var r := if k in Keys(d) then d[Find(d, k) := (k, v)] else d + [(k, v)];
    SetFacts(d, k, v, r);
    r
  }

  lemma SetFacts<V>(d: Dict<V>, k: string, v: V, r: Dict<V>)
    requires r == if k in Keys(d) then d[Find(d, k) := (k, v)] else d + [(k, v)]
    ensures Keys(r) == if k in Keys(d) then Keys(d) else Keys(d) + [k]
    ensures k in Keys(r) && Get(r, k) == v
    ensures forall k' :: k' != k && k' in Keys(d) ==> Get(r, k') == Get(d, k')
  {
    assert Keys(r) == if k in Keys(d) then Keys(d) else Keys(d) + [k];
    if k !in Keys(d) {
      assert Keys(r)[|d|] == k;
      assert forall j :: 0 <= j < |d| ==> r[j].0 == Keys(d)[j] != k;
      assert Find(r, k) == |d|;
    }
    forall k' | k' != k && k' in Keys(d)
      ensures Get(r, k') == Get(d, k')
    {
      SamePrefixSameFind(d, r, k');
    }
  }

  /**
   `del d[k]` when `k` is a key, and `d` unchanged otherwise: the other keys
   keep their order and their values.
   */
  function Remove<V>(d: Dict<V>, k: string): (r: Dict<V>)
    requires IsDict(d)
    ensures IsDict(r) && k !in Keys(r)
    ensures |r| == if k in Keys(d) then |d| - 1 else |d|
    ensures Keys(d) == if k in Keys(d) then Keys(r)[..Find(d, k)] + [k] + Keys(r)[Find(d, k)..] else Keys(r)
    ensures forall k' :: k' in Keys(r) <==> k' != k && k' in Keys(d)
    ensures forall k' :: k' != k && k' in Keys(d) ==> Get(r, k') == Get(d, k')
  {
    if k in Keys(d) then
      var i := Find(d, k);
      RemoveAt(d, i);
      d[..i] + d[i + 1..]
    else
      d
  }

  /** Dropping the entry at `i` leaves a dict without its key, the others in order and reading as before. */
  lemma RemoveAt<V>(d: Dict<V>, i: nat)
    requires IsDict(d) && i < |d|
    ensures var r := d[..i] + d[i + 1..];
      && Keys(d) == Keys(r)[..i] + [d[i].0] + Keys(r)[i..]
      && IsDict(r) && d[i].0 !in Keys(r)
      && (forall k' :: k' in Keys(r) ==> k' in Keys(d))
      && forall k' :: k' != d[i].0 && k' in Keys(d) ==> k' in Keys(r) && Get(r, k') == Get(d, k')
  {
    var r := d[..i] + d[i + 1..];
    RemoveAtKeys(d, i);
    forall k' | k' != d[i].0 && k' in Keys(d)
      ensures k' in Keys(r) && Get(r, k') == Get(d, k')
    {
      var j :| 0 <= j < |d| && Keys(d)[j] == k';
      var j' := if j < i then j else j - 1;
      assert r[j'] == d[j];
      GetAt(d, j);
      GetAt(r, j');
    }
  }

  lemma RemoveAtKeys<V>(d: Dict<V>, i: nat)
    requires IsDict(d) && i < |d|
    ensures var r := d[..i] + d[i + 1..];
      && Keys(d) == Keys(r)[..i] + [d[i].0] + Keys(r)[i..]
      && IsDict(r) && d[i].0 !in Keys(r)
      && (forall k' :: k' in Keys(r) ==> k' in Keys(d))
  {
    var r := d[..i] + d[i + 1..];
    var ks := Keys(d);
    assert Keys(r) == ks[..i] + ks[i + 1..];
    assert ks == Keys(r)[..i] + [d[i].0] + Keys(r)[i..];
    forall a, b | 0 <= a < b < |r|
      ensures Keys(r)[a] != Keys(r)[b]
    {
      var a', b' := if a < i then a else a + 1, if b < i then b else b + 1;
      assert Keys(r)[a] == ks[a'] && Keys(r)[b] == ks[b'];
    }
    forall j | 0 <= j < |r|
      ensures Keys(r)[j] != d[i].0 && Keys(r)[j] in ks
    {
      var j' := if j < i then j else j + 1;
      assert Keys(r)[j] == ks[j'] && ks[i] == d[i].0;
    }
  }

  /** The dict as a map from keys to values, forgetting the order. */
  function ToMap<V>(d: Dict<V>): (m: map<string, V>)
    ensures forall k :: k in m <==> k in Keys(d)
    ensures forall k :: k in m ==> m[k] == Get(d, k)
  {
    map k | k in Keys(d) :: Get(d, k)
  }

  /** Two dicts with the same keys, each reading the same value, give the same map. */
  lemma SameEntriesSameMap<V>(a: Dict<V>, b: Dict<V>)
    requires forall k :: k in Keys(a) <==> k in Keys(b)
    requires forall k :: k in Keys(a) ==> Get(a, k) == Get(b, k)
    ensures ToMap(a) == ToMap(b)
  {
  }

  /** Where two dicts agree on the keys of a prefix, a key found there is found at the same place. */
  lemma SamePrefixSameFind<V>(d: Dict<V>, r: Dict<V>, k: string)
    requires |d| <= |r| && k in Keys(d)
    requires forall j :: 0 <= j < |d| ==> r[j].0 == d[j].0
    requires r[Find(d, k)] == d[Find(d, k)]
    ensures k in Keys(r) && Find(r, k) == Find(d, k)
  {
    var i := Find(d, k);
    assert Keys(r)[i] == k;
  }

  /** In a dict every entry is the one its key reads. */
  lemma GetAt<V>(d: Dict<V>, i: nat)
    requires IsDict(d) && i < |d|
    ensures d[i].0 in Keys(d) && Get(d, d[i].0) == d[i].1
  {
    assert Keys(d)[i] == d[i].0;
    var j := Find(d, d[i].0);
    assert Keys(d)[j] == Keys(d)[i];
  }

  /** Two dicts with the same keys in the same order, each reading the same value, are equal. */
  lemma DictExt<V>(a: Dict<V>, b: Dict<V>)
    requires IsDict(a) && Keys(a) == Keys(b)
    requires forall k :: k in Keys(a) ==> Get(a, k) == Get(b, k)
    ensures a == b
  {
    assert |a| == |Keys(a)| == |Keys(b)| == |b|;
    forall i | 0 <= i < |a|
      ensures a[i] == b[i]
    {
      assert Keys(a)[i] == a[i].0 && Keys(b)[i] == b[i].0;
      GetAt(a, i);
      GetAt(b, i);
    }
  }
}

=== FILE: sensor_line.dfy ===
/**
 The sensor bridge's line parser: the trimmed serial line, the chain of six
 `indexOf(',', previous + 1)` searches, the acceptance test
 `firstComma > 0 && sixthComma > 0`, and the cut into seven text fields.

 `Commas` is the reference the firmware's chain is compared with: the
 positions of every comma of the line in increasing order.
 */
module SensorLine {
  import opened Wrappers
  import opened ArduinoString

  /** The seven text fields of one sensor line, in the order the Arduino Uno sends them. */
  datatype Fields = Fields(
    temperature: string,
    heartRate: string,
    spo2: string,
    ecgStatus: string,
    steps: string,
    bpSystolic: string,
    bpDiastolic: string)

  /** None of the fields before the last holds a comma. */
  predicate FirstSixCommaFree(f: Fields) {
    && ',' !in f.temperature && ',' !in f.heartRate && ',' !in f.spo2
    && ',' !in f.ecgStatus && ',' !in f.steps && ',' !in f.bpSystolic
  }

  function FieldList(f: Fields): seq<string> {
    [f.temperature, f.heartRate, f.spo2, f.ecgStatus, f.steps, f.bpSystolic, f.bpDiastolic]
  }

  /** Pieces written one after another with a comma between consecutive ones. */
  function Join(xs: seq<string>): string
    requires |xs| > 0
  {
    if |xs| == 1 then xs[0] else xs[0] + "," + Join(xs[1..])
  }

  /** The line the Arduino Uno prints for one reading: the seven fields joined by commas. */
  function FormatLine(f: Fields): string {
    Join(FieldList(f))
  }

  // ---------------------------------------------------------------------------
  // Reference: the positions of all commas

  /** No comma at any index in `[lo, hi)`. */
  predicate NoCommaIn(s: string, lo: int, hi: int) {
    forall k :: 0 <= k < |s| && lo <= k < hi ==> s[k] != ','
  }

  /**
   Every comma position at or after `from`, increasing: each listed index
   holds a comma, and there is no comma before the first one, between two
   consecutive ones, or after the last one.
   */
  function CommasFrom(s: string, from: nat): (p: seq<nat>)
    ensures CommaList(s, from, p)
    decreases |s| - from
  {
    if from >= |s| then []
    else if s[from] == ',' then
      var rest := CommasFrom(s, from + 1);
      CommaListCons(s, from, rest);
      [from] + rest
    else
      var p := CommasFrom(s, from + 1);
      assert NoCommaIn(s, from, if p == [] then |s| else p[0]);
      p
  }

  /**
   `p` lists every comma position at or after `from`, increasing: each listed
   index holds a comma, and there is no comma before the first one, between
   two consecutive ones, or after the last one.
   */
  predicate CommaList(s: string, from: nat, p: seq<nat>) {
    && (forall i :: 0 <= i < |p| ==> from <= p[i] < |s| && s[p[i]] == ',')
    && (forall i, j :: 0 <= i < j < |p| ==> p[i] < p[j])
    && NoCommaIn(s, from, if p == [] then |s| else p[0])
    && (forall i :: 0 <= i < |p| ==> GapAfter(s, p, i))
  }

  /** No comma between the `i`-th listed position and the next one (or the end of `s`). */
  predicate GapAfter(s: string, p: seq<nat>, i: nat)
    requires i < |p|
  {
    NoCommaIn(s, p[i] + 1, if i + 1 < |p| then p[i + 1] else |s|)
  }

  lemma CommaListCons(s: string, from: nat, rest: seq<nat>)
    requires from < |s| && s[from] == ','
    requires CommaList(s, from + 1, rest)
    ensures CommaList(s, from, [from] + rest)
  {
    var p := [from] + rest;
    assert forall i :: 0 < i < |p| ==> p[i] == rest[i - 1];
    GapsCons(s, from, rest);
  }

  /** The gaps after the positions in `rest`, and the gap before them, are the gaps after `[from] + rest`. */
  lemma GapsCons(s: string, from: nat, rest: seq<nat>)
    requires NoCommaIn(s, from + 1, if rest == [] then |s| else rest[0])
    requires forall i :: 0 <= i < |rest| ==> GapAfter(s, rest, i)
    ensures var p := [from] + rest;
      forall i :: 0 <= i < |p| ==> GapAfter(s, p, i)
  {
    var p := [from] + rest;
    forall i | 0 <= i < |p|
      ensures GapAfter(s, p, i)
    {
      if i > 0 {
        var j := i - 1;
        assert GapAfter(s, rest, j);
        assert p[i] == rest[j];
        assert (if i + 1 < |p| then p[i + 1] else |s|) == (if j + 1 < |rest| then rest[j + 1] else |s|);
      }
    }
  }

  function Commas(s: string): seq<nat> {
    CommasFrom(s, 0)
  }

  /** The number of comma positions is the number of commas in the line. */
  lemma {:induction false} CommasFromCount(s: string, from: nat)
    requires from <= |s|
    ensures |CommasFrom(s, from)| == multiset(s[from..])[',']
    decreases |s| - from
  {
    if from == |s| {
      assert s[from..] == [];
    } else {
      assert s[from..] == [s[from]] + s[from + 1..];
      CommasFromCount(s, from + 1);
    }
  }

  lemma CommasCount(s: string)
    ensures |Commas(s)| == multiset(s)[',']
  {
    CommasFromCount(s, 0);
    assert s[0..] == s;
  }

  /** The search after the `j`-th comma (after nothing, when `j` is -1) finds the next one. */
  lemma SearchAfter(s: string, j: int)
    requires -1 <= j < |Commas(s)|
    ensures var p := Commas(s);
      IndexOf(s, ',', if j == -1 then 0 else p[j] + 1) == (if j + 1 < |p| then p[j + 1] else -1)
  {
    if j >= 0 {
      assert GapAfter(s, Commas(s), j);
    }
  }

  // ---------------------------------------------------------------------------
  // The firmware's search chain and acceptance test

  /**
   `n` searches for ',' each starting one past the index the previous one
   returned (the first one past `prev`); a search that fails returns -1, so
   the one after it starts at index 0 again.
   */
  function ChainFrom(t: string, prev: int, n: nat): (c: seq<int>)
    requires prev >= -1
    ensures |c| == n
    ensures forall i :: 0 <= i < n ==> c[i] == -1 || (0 <= c[i] < |t| && t[c[i]] == ',')
    decreases n
  {
    if n == 0 then []
    else
      var next := IndexOf(t, ',', prev + 1);
      [next] + ChainFrom(t, next, n - 1)
  }

  /** The six indices `firstComma` .. `sixthComma`: each is -1 or the index of a comma. */
  function CommaChain(t: string): (c: seq<int>)
    ensures |c| == 6
    ensures forall i :: 0 <= i < 6 ==> c[i] == -1 || (0 <= c[i] < |t| && t[c[i]] == ',')
  {
    ChainFrom(t, -1, 6)
  }

  /** The `i`-th search of a chain starts one past the index before it. */
  lemma {:induction false} ChainFromStep(t: string, prev: int, n: nat, i: nat)
    requires prev >= -1 && i < n
    ensures var c := ChainFrom(t, prev, n);
      c[i] == IndexOf(t, ',', if i == 0 then prev + 1 else c[i - 1] + 1)
    decreases i
  {
    if i > 0 {
      var next := IndexOf(t, ',', prev + 1);
      ChainFromStep(t, next, n - 1, i - 1);
    }
  }

  /**
   How the chain moves: the first search finds -1 exactly when the line has
   no comma; a search that succeeds lands on a comma past the previous index
   with no comma skipped; a search that fails gives -1, and the search after
   it starts over at index 0, so it repeats the first search.
   */
  lemma CommaChainSteps(t: string)
    ensures var c := CommaChain(t);
      && (c[0] == -1 <==> ',' !in t)
      && NextComma(t, -1, c[0])
      && (forall i :: 0 < i < 6 ==> NextComma(t, c[i - 1], c[i]))
      && (forall i :: 0 < i < 6 && c[i - 1] == -1 ==> c[i] == c[0])
  {
    var c := CommaChain(t);
    assert c[0] == -1 <==> ',' !in t by {
      if c[0] != -1 { assert t[c[0]] in t; }
    }
    assert NextComma(t, -1, c[0]) by {
      ChainStep(t, 0);
      SearchIsNext(t, -1);
    }
    forall i | 0 < i < 6
      ensures NextComma(t, c[i - 1], c[i])
      ensures c[i - 1] == -1 ==> c[i] == c[0]
    {
      ChainStep(t, 0);
      ChainStep(t, i);
      SearchIsNext(t, c[i - 1]);
    }
  }

  /** The `i`-th search of the chain starts one past the previous index (at 0 for the first). */
  lemma ChainStep(t: string, i: nat)
    requires i < 6
    ensures var c := CommaChain(t);
      c[i] == IndexOf(t, ',', if i == 0 then 0 else c[i - 1] + 1)
  {
    var c := ChainFrom(t, -1, 6);
    assert CommaChain(t) == c;
    ChainFromStep(t, -1, 6, i);
    assert c[i] == IndexOf(t, ',', if i == 0 then 0 else c[i - 1] + 1);
  }

  /** A search that starts one past `prev` gives what `NextComma` allows. */
  lemma SearchIsNext(t: string, prev: int)
    requires prev >= -1
    ensures NextComma(t, prev, IndexOf(t, ',', prev + 1))
  {
  }

  /**
   `next` is what a search for ',' after index `prev` may give: -1 when no
   comma follows `prev`, and otherwise a comma past `prev` with no comma in
   between. (After a failed search, `prev` is -1 and the search covers the
   whole line.)
   */
  predicate NextComma(t: string, prev: int, next: int) {
    && (next == -1 <==> forall k :: 0 <= k < |t| && prev < k ==> t[k] != ',')
    && (next != -1 ==> 0 <= next < |t| && prev < next && t[next] == ',')
    && (forall k :: 0 <= k < |t| && prev < k < next ==> t[k] != ',')
  }

  /**
   `firstComma > 0 && sixthComma > 0` on the trimmed line. An accepted line
   is not empty, does not start with a comma, and both searches found a
   comma. `AcceptsIff` says which lines these are.
   */
  function Accepts(t: string): (ok: bool)
    ensures ok ==> t != [] && t[0] != ','
    ensures ok ==> var c := CommaChain(t);
      && 0 < c[0] < |t| && t[c[0]] == ','
      && 0 < c[5] < |t| && t[c[5]] == ','
  {
    var c := CommaChain(t);
    ChainStep(t, 0);
    c[0] > 0 && c[5] > 0
  }

  /**
   Where the chain stands after `i` searches on a line with `n` commas: at
   the `s`-th comma for `s < n`, or past the end (a failed search) for
   `s == n`, after which it starts over at the first comma.
   */
  function ChainState(n: nat, i: nat): (s: nat)
    ensures s <= n
  {
    if i == 0 then 0 else Advance(n, ChainState(n, i - 1))
  }

  /** One search later: the next comma, or the first one again after a failed search. */
  function Advance(n: nat, s: nat): nat
    requires s <= n
  {
    if s == n then 0 else s + 1
  }

  /** The index the chain holds in state `s`: the `s`-th comma, or -1 past the last one. */
  function At(p: seq<nat>, s: nat): int {
    if s < |p| then p[s] else -1
  }

  /** The reference chain: the `i`-th index read off the comma positions `p`. */
  function ChainRef(p: seq<nat>, i: nat): int {
    At(p, ChainState(|p|, i))
  }

  /**
   The firmware's chain walks the comma positions: it visits them in order,
   gives -1 after the last one, and starts over at the first.
   */
  lemma {:induction false} ChainMatchesRef(t: string, i: nat)
    requires i < 6
    ensures CommaChain(t)[i] == ChainRef(Commas(t), i)
    decreases i
  {
    var p := Commas(t);
    if i == 0 {
      ChainStep(t, 0);
      SearchAfter(t, -1);
    } else {
      ChainMatchesRef(t, i - 1);
      var s := ChainState(|p|, i - 1);
      ChainNext(t, i, s);
      assert ChainState(|p|, i) == Advance(|p|, s);
    }
  }

  /**
   The `i`-th search after the chain stood in state `s` (at the `s`-th
   comma, or at -1 past the last one) lands where the state advances to.
   */
  lemma ChainNext(t: string, i: nat, s: nat)
    requires 0 < i < 6 && s <= |Commas(t)|
    requires CommaChain(t)[i - 1] == At(Commas(t), s)
    ensures CommaChain(t)[i] == At(Commas(t), Advance(|Commas(t)|, s))
  {
    ChainStep(t, i);
    if s < |Commas(t)| {
      SearchAfter(t, s);
    } else {
      SearchAfter(t, -1);
    }
  }

  /** Up to the number of commas, the chain has taken one step per search. */
  lemma {:induction false} ChainStateEarly(n: nat, i: nat)
    requires i <= n
    ensures ChainState(n, i) == i
  {
    if i > 0 {
      ChainStateEarly(n, i - 1);
    }
  }

  /** The sixth search lands on a comma exactly for 3, 4, or at least 6 commas. */
  lemma ChainStateSixth(n: nat)
    ensures ChainState(n, 5) < n <==> n == 3 || n == 4 || n >= 6
  {
    if n >= 5 {
      ChainStateEarly(n, 5);
    } else if n == 0 {
      assert ChainState(0, 5) == 0;
    } else if n == 1 {
      assert ChainState(1, 5) == 1;
    } else if n == 2 {
      assert ChainState(2, 5) == 2;
    } else if n == 3 {
      assert ChainState(3, 5) == 1;
    } else {
      assert ChainState(4, 5) == 0;
    }
  }

  /** On a line with six or more commas the chain is the first six comma positions. */
  lemma ChainSixCommas(t: string)
    requires |Commas(t)| >= 6
    ensures forall i :: 0 <= i < 6 ==> CommaChain(t)[i] == Commas(t)[i]
  {
    forall i | 0 <= i < 6
      ensures CommaChain(t)[i] == Commas(t)[i]
    {
      ChainMatchesRef(t, i);
      ChainStateEarly(|Commas(t)|, i);
    }
  }

  /** The first comma is past index 0 exactly when the line has a comma and does not start with one. */
  lemma FirstCommaPositive(t: string)
    requires |Commas(t)| > 0
    ensures Commas(t)[0] > 0 <==> t[0] != ','
  {
  }

  /**
   The acceptance test holds exactly when the trimmed line does not start
   with a comma and has 3, 4, or at least 6 commas: lines with 0, 1, 2 or 5
   commas are rejected, while 3- and 4-comma lines pass.
   */
  lemma AcceptsIff(t: string)
    ensures Accepts(t) <==>
      t != [] && t[0] != ',' && var n := multiset(t)[','];
      n == 3 || n == 4 || n >= 6
  {
    var p := Commas(t);
    ChainMatchesRef(t, 0);
    ChainMatchesRef(t, 5);
    ChainStateSixth(|p|);
    CommasCount(t);
    if |p| > 0 {
      FirstCommaPositive(t);
      var k := ChainState(|p|, 5);
      if k < |p| {
        assert k == 0 || p[0] < p[k];
      }
    } else if t != [] {
      assert t[0] in multiset(t);
    }
  }

  // ---------------------------------------------------------------------------
  // Cutting the line into fields

  /**
   `loop()`'s parse of one serial line: trim it, run the comma chain, apply
   the acceptance test, and cut the seven fields with `substring`. A line is
   accepted exactly when its trimmed text does not start with a comma and has
   3, 4, or at least 6 commas.
   */
  function ParseLine(line: string): (r: Option<Fields>)
    ensures var t := Trim(line); var n := multiset(t)[','];
      r.Some? <==> t != [] && t[0] != ',' && (n == 3 || n == 4 || n >= 6)
  {
    var t := Trim(line);
    var c := CommaChain(t);
    AcceptsIff(t);
    if c[0] > 0 && c[5] > 0 then Some(Cut(t, c)) else None
  }

  /** An accepted line's first field starts, and its last field ends, with a non-space character or is empty. */
  lemma ParseLineEnds(line: string)
    requires ParseLine(line).Some?
    ensures var f := ParseLine(line).value;
      && f.temperature != [] && !IsSpace(f.temperature[0])
      && (f.bpDiastolic == [] || !IsSpace(f.bpDiastolic[|f.bpDiastolic| - 1]))
  {
    var t := Trim(line);
    var c := CommaChain(t);
    assert c[0] > 0 && c[5] > 0 && ParseLine(line).value == Cut(t, c);
    CutEnds(t, c);
  }

  /** Cut at two in-range indices, a trimmed text gives a first field and a last field with no space at the outer ends. */
  lemma CutEnds(t: string, c: seq<int>)
    requires Trimmed(t)
    requires |c| == 6 && forall i :: 0 <= i < 6 ==> c[i] >= -1
    requires 0 < c[0] < |t| && 0 < c[5] < |t|
    ensures var f := Cut(t, c);
      && f.temperature != [] && !IsSpace(f.temperature[0])
      && (f.bpDiastolic == [] || !IsSpace(f.bpDiastolic[|f.bpDiastolic| - 1]))
  {
    var f := Cut(t, c);
    assert f.temperature == t[..c[0]];
    assert f.temperature[0] == t[0];
    assert f.bpDiastolic == t[c[5] + 1..];
    if f.bpDiastolic != [] {
      assert f.bpDiastolic[|f.bpDiastolic| - 1] == t[|t| - 1];
    }
  }

  /** The seven `substring` calls on the chain's indices. */
  function Cut(t: string, c: seq<int>): (f: Fields)
    requires |c| == 6 && forall i :: 0 <= i < 6 ==> c[i] >= -1
    ensures 0 <= c[0] <= |t| ==> f.temperature == t[..c[0]]
    ensures 0 <= c[5] < |t| ==> f.bpDiastolic == t[c[5] + 1..]
  {
    Fields(
      Substring(t, 0, AsUnsigned(c[0])),
      Substring(t, AsUnsigned(c[0] + 1), AsUnsigned(c[1])),
      Substring(t, AsUnsigned(c[1] + 1), AsUnsigned(c[2])),
      Substring(t, AsUnsigned(c[2] + 1), AsUnsigned(c[3])),
      Substring(t, AsUnsigned(c[3] + 1), AsUnsigned(c[4])),
      Substring(t, AsUnsigned(c[4] + 1), AsUnsigned(c[5])),
      SubstringFrom(t, AsUnsigned(c[5] + 1)))
  }

  /** What the comment in `loop()` asks for: a non-empty first field and (at least) six commas. */
  predicate HasSixCommas(t: string) {
    t != [] && t[0] != ',' && multiset(t)[','] >= 6
  }

  /**
   On a line with at least six commas the cut is at the first six commas: each of
   the first six fields runs up to the next comma, and the last one runs to
   the end of the trimmed line (further commas included).
   */
  lemma SevenFieldCut(line: string)
    requires HasSixCommas(Trim(line))
    ensures var t := Trim(line); var p := Commas(t);
      && |p| >= 6
      && SixCommaPositions(t, p[..6])
      && ParseLine(line) == Some(Slices(t, p[..6]))
  {
    var t := Trim(line);
    var p := Commas(t);
    CommasCount(t);
    FirstSixCommas(t);
    ChainSixCommas(t);
    var q: seq<int> := p[..6];
    var c := CommaChain(t);
    assert c[0] == q[0] && c[1] == q[1] && c[2] == q[2] && c[3] == q[3] && c[4] == q[4] && c[5] == q[5];
    CutAtCommas(t, c, q);
  }

  /** Six increasing comma positions, in range. */
  predicate SixCommaPositions(t: string, q: seq<int>) {
    && |q| == 6
    && 0 <= q[0] < q[1] < q[2] < q[3] < q[4] < q[5] < |t|
    && forall i :: 0 <= i < 6 ==> t[q[i]] == ','
  }

  /** The first six comma positions of a line with at least six commas. */
  lemma FirstSixCommas(t: string)
    requires |Commas(t)| >= 6
    ensures SixCommaPositions(t, Commas(t)[..6])
  {
    var p := Commas(t);
    var q := p[..6];
    assert q[0] == p[0] && q[1] == p[1] && q[2] == p[2] && q[3] == p[3] && q[4] == p[4] && q[5] == p[5];
    assert p[0] < p[1] && p[1] < p[2] && p[2] < p[3] && p[3] < p[4] && p[4] < p[5];
    assert t[p[0]] == ',' && t[p[1]] == ',' && t[p[2]] == ',' && t[p[3]] == ',' && t[p[4]] == ',' && t[p[5]] == ',';
  }

  /** The seven slices of `t` around the positions `q`. */
  function Slices(t: string, q: seq<int>): Fields
    requires SixCommaPositions(t, q)
  {
    Fields(t[..q[0]], t[q[0] + 1..q[1]], t[q[1] + 1..q[2]], t[q[2] + 1..q[3]],
           t[q[3] + 1..q[4]], t[q[4] + 1..q[5]], t[q[5] + 1..])
  }

  /** On six increasing in-range indices the `substring` calls are plain slices. */
  lemma CutAtCommas(t: string, c: seq<int>, q: seq<int>)
    requires SixCommaPositions(t, q)
    requires |c| == 6 && c[0] == q[0] && c[1] == q[1] && c[2] == q[2] && c[3] == q[3] && c[4] == q[4] && c[5] == q[5]
    ensures Cut(t, c) == Slices(t, q)
  {
    SubstringsAtSix(t, q[0], q[1], q[2], q[3], q[4], q[5]);
  }

  /** The seven `substring` calls of `Cut` at six increasing indices are the slices between them. */
  lemma SubstringsAtSix(t: string, a0: int, a1: int, a2: int, a3: int, a4: int, a5: int)
    requires 0 <= a0 < a1 < a2 < a3 < a4 < a5 < |t|
    ensures Substring(t, 0, AsUnsigned(a0)) == t[..a0]
    ensures Substring(t, AsUnsigned(a0 + 1), AsUnsigned(a1)) == t[a0 + 1..a1]
    ensures Substring(t, AsUnsigned(a1 + 1), AsUnsigned(a2)) == t[a1 + 1..a2]
    ensures Substring(t, AsUnsigned(a2 + 1), AsUnsigned(a3)) == t[a2 + 1..a3]
    ensures Substring(t, AsUnsigned(a3 + 1), AsUnsigned(a4)) == t[a3 + 1..a4]
    ensures Substring(t, AsUnsigned(a4 + 1), AsUnsigned(a5)) == t[a4 + 1..a5]
    ensures SubstringFrom(t, AsUnsigned(a5 + 1)) == t[a5 + 1..]
  {
    Before(t, a0);
    Between(t, a0, a1);
    Between(t, a1, a2);
    Between(t, a2, a3);
    Between(t, a3, a4);
    Between(t, a4, a5);
    After(t, a5);
  }

  /** The first `substring` call, up to an index in range, is the prefix before it. */
  lemma Before(t: string, b: int)
    requires 0 <= b <= |t|
    ensures Substring(t, 0, AsUnsigned(b)) == t[..b]
  {
  }

  /** The last `substring` call, after an index in range, is the suffix after it. */
  lemma After(t: string, a: int)
    requires 0 <= a < |t|
    ensures SubstringFrom(t, AsUnsigned(a + 1)) == t[a + 1..]
  {
  }

  /** The `substring` call between two increasing indices is the slice between them. */
  lemma Between(t: string, a: int, b: int)
    requires 0 <= a < b <= |t|
    ensures Substring(t, AsUnsigned(a + 1), AsUnsigned(b)) == t[a + 1..b]
  {
  }

  /** The slices around six commas, joined with ",", give back the text. */
  lemma JoinSlices(t: string, q: seq<int>)
    requires SixCommaPositions(t, q)
    ensures FormatLine(Slices(t, q)) == t
  {
    var f := Slices(t, q);
    FormatLineText(f);
    RejoinText(t, q);
    RejoinTail(t, q, 0);
    SplitAtComma(t, 0, q[0]);
    assert t[0..] == t && t[0..q[0]] == t[..q[0]];
  }

  /** The text after the `k`-th of the commas `q`, rebuilt from the slices between them. */
  function RejoinFrom(t: string, q: seq<int>, k: nat): string
    requires SixCommaPositions(t, q) && k < 6
    decreases 5 - k
  {
    if k == 5 then t[q[5] + 1..]
    else t[q[k] + 1..q[k + 1]] + "," + RejoinFrom(t, q, k + 1)
  }

  /** Cutting the rest of the text at its remaining commas and putting it back together changes nothing. */
  lemma {:induction false} RejoinTail(t: string, q: seq<int>, k: nat)
    requires SixCommaPositions(t, q) && k < 6
    ensures t[q[k] + 1..] == RejoinFrom(t, q, k)
    decreases 5 - k
  {
    if k < 5 {
      var rest := RejoinFrom(t, q, k + 1);
      RejoinTail(t, q, k + 1);
      SplitBefore(t, q[k] + 1, q[k + 1], rest);
    }
  }

  /** The rebuilt text after the first comma, spelled out with the fields of the slices. */
  lemma RejoinText(t: string, q: seq<int>)
    requires SixCommaPositions(t, q)
    ensures var f := Slices(t, q);
      RejoinFrom(t, q, 0) ==
      f.heartRate + "," + (f.spo2 + "," + (f.ecgStatus + "," + (f.steps + "," + (f.bpSystolic + "," + f.bpDiastolic))))
  {
    assert RejoinFrom(t, q, 4) == t[q[4] + 1..q[5]] + "," + t[q[5] + 1..];
    assert RejoinFrom(t, q, 3) == t[q[3] + 1..q[4]] + "," + RejoinFrom(t, q, 4);
    assert RejoinFrom(t, q, 2) == t[q[2] + 1..q[3]] + "," + RejoinFrom(t, q, 3);
    assert RejoinFrom(t, q, 1) == t[q[1] + 1..q[2]] + "," + RejoinFrom(t, q, 2);
  }

  /** The printed line, spelled out: each field followed by a comma, except the last. */
  lemma FormatLineText(f: Fields)
    ensures FormatLine(f) ==
      f.temperature + "," + (f.heartRate + "," + (f.spo2 + "," + (f.ecgStatus + "," +
      (f.steps + "," + (f.bpSystolic + "," + f.bpDiastolic)))))
  {
    var xs := FieldList(f);
    assert Join(xs[6..]) == f.bpDiastolic by { assert xs[6..] == [f.bpDiastolic]; }
    JoinCons(xs, 5);
    JoinCons(xs, 4);
    JoinCons(xs, 3);
    JoinCons(xs, 2);
    JoinCons(xs, 1);
    JoinCons(xs, 0);
    assert xs[0..] == xs;
  }

  /** The text from `a` on is the piece up to the comma at `b`, the comma, and the rest. */
  lemma SplitAtComma(t: string, a: int, b: int)
    requires 0 <= a <= b < |t| && t[b] == ','
    ensures t[a..] == t[a..b] + "," + t[b + 1..]
  {
  }

  /** As `SplitAtComma`, with the text after the comma already known to be `rest`. */
  lemma SplitBefore(t: string, a: int, b: int, rest: string)
    requires 0 <= a <= b < |t| && t[b] == ',' && t[b + 1..] == rest
    ensures t[a..] == t[a..b] + "," + rest
  {
    SplitAtComma(t, a, b);
  }

  /** Joining from the `k`-th piece on: that piece, a comma, and the join of the rest. */
  lemma JoinCons(xs: seq<string>, k: nat)
    requires k + 1 < |xs|
    ensures Join(xs[k..]) == xs[k] + "," + Join(xs[k + 1..])
  {
    assert xs[k..][1..] == xs[k + 1..];
  }

  /**
   The fields of a line with no leading comma and at least six commas,
   joined with ",", give back the trimmed line, and none of the first six
   contains a comma.
   */
  lemma ParseJoinRoundTrip(line: string)
    requires HasSixCommas(Trim(line))
    ensures ParseLine(line).Some?
    ensures FormatLine(ParseLine(line).value) == Trim(line)
    ensures FirstSixCommaFree(ParseLine(line).value)
  {
    var t := Trim(line);
    SevenFieldCut(line);
    JoinSlices(t, Commas(t)[..6]);
    SlicesCommaFree(t);
  }

  /** None of the first six slices of a line with six commas holds a comma. */
  lemma SlicesCommaFree(t: string)
    requires |Commas(t)| >= 6
    ensures SixCommaPositions(t, Commas(t)[..6])
    ensures FirstSixCommaFree(Slices(t, Commas(t)[..6]))
  {
    var p := Commas(t);
    var q: seq<int> := p[..6];
    FirstSixCommas(t);
    var f := Slices(t, q);
    assert ',' !in f.temperature by {
      assert NoCommaIn(t, 0, p[0]);
      NoCommaSlice(t, 0, q[0]);
    }
    assert ',' !in f.heartRate by { CommaGap(t, 0); NoCommaSlice(t, q[0] + 1, q[1]); }
    assert ',' !in f.spo2 by { CommaGap(t, 1); NoCommaSlice(t, q[1] + 1, q[2]); }
    assert ',' !in f.ecgStatus by { CommaGap(t, 2); NoCommaSlice(t, q[2] + 1, q[3]); }
    assert ',' !in f.steps by { CommaGap(t, 3); NoCommaSlice(t, q[3] + 1, q[4]); }
    assert ',' !in f.bpSystolic by { CommaGap(t, 4); NoCommaSlice(t, q[4] + 1, q[5]); }
  }

  /** No comma lies between two consecutive comma positions. */
  lemma CommaGap(t: string, k: nat)
    requires k + 1 < |Commas(t)|
    ensures NoCommaIn(t, Commas(t)[k] + 1, Commas(t)[k + 1])
  {
    assert GapAfter(t, Commas(t), k);
  }

  lemma NoCommaSlice(t: string, a: int, b: int)
    requires 0 <= a <= b <= |t| && NoCommaIn(t, a, b)
    ensures ',' !in t[a..b]
  {
    assert forall k :: 0 <= k < b - a ==> t[a..b][k] == t[a + k];
  }

  // ---------------------------------------------------------------------------
  // Facts about `Join`

  /** The first piece ends at the first comma of the joined text. */
  lemma JoinFirstComma(xs: seq<string>)
    requires |xs| > 1 && ',' !in xs[0]
    ensures IndexOf(Join(xs), ',', 0) == |xs[0]|
    ensures Join(xs)[..|xs[0]|] == xs[0] && Join(xs)[|xs[0]| + 1..] == Join(xs[1..])
  {
    var s := Join(xs);
    assert s == xs[0] + "," + Join(xs[1..]);
    assert s[|xs[0]|] == ',';
    assert forall k :: 0 <= k < |xs[0]| ==> s[k] == xs[0][k];
  }

  /** Joining is one-to-one on pieces that contain no comma (the last may). */
  lemma {:induction false} JoinInjective(xs: seq<string>, ys: seq<string>)
    requires |xs| == |ys| > 0
    requires forall i :: 0 <= i < |xs| - 1 ==> ',' !in xs[i] && ',' !in ys[i]
    requires Join(xs) == Join(ys)
    ensures xs == ys
    decreases |xs|
  {
    if |xs| > 1 {
      JoinFirstComma(xs);
      JoinFirstComma(ys);
      JoinInjective(xs[1..], ys[1..]);
      assert xs == [xs[0]] + xs[1..];
      assert ys == [ys[0]] + ys[1..];
    }
  }

  /** `n` pieces put `n - 1` commas of their own into the joined text. */
  lemma {:induction false} JoinCommaCount(xs: seq<string>)
    requires |xs| > 0
    ensures multiset(Join(xs))[','] >= |xs| - 1
    decreases |xs|
  {
    if |xs| > 1 {
      JoinCommaCount(xs[1..]);
      assert multiset(Join(xs)) == multiset(xs[0]) + multiset(",") + multiset(Join(xs[1..]));
    }
  }

  /** The joined text ends with the last piece, after a comma when there are several pieces. */
  lemma {:induction false} JoinLast(xs: seq<string>)
    requires |xs| > 1
    ensures Join(xs) == Join(xs[..|xs| - 1]) + "," + xs[|xs| - 1]
    decreases |xs|
  {
    if |xs| > 2 {
      var ys, init, last := xs[1..], xs[..|xs| - 1], xs[|xs| - 1];
      JoinLast(ys);
      assert ys[..|ys| - 1] == init[1..] && ys[|ys| - 1] == last;
      assert Join(init) == xs[0] + "," + Join(init[1..]);
      assert Join(xs) == xs[0] + "," + (Join(init[1..]) + "," + last);
    }
  }

  /**
   Printing a reading and reading the line back gives the same fields,
   provided the first six fields hold no comma and the line has no whitespace
   at its ends for `trim()` to remove.
   */
  lemma FormatParseRoundTrip(f: Fields)
    requires FirstSixCommaFree(f)
    requires f.temperature != [] && !IsSpace(f.temperature[0])
    requires f.bpDiastolic == [] || !IsSpace(f.bpDiastolic[|f.bpDiastolic| - 1])
    ensures ParseLine(FormatLine(f)) == Some(f)
  {
    var line := FormatLine(f);
    FormatLineShape(f);
    ParseJoinRoundTrip(line);
    FormatInjective(ParseLine(line).value, f);
  }

  /** A formatted reading has no whitespace at its ends, no leading comma and at least six commas. */
  lemma FormatLineShape(f: Fields)
    requires FirstSixCommaFree(f)
    requires f.temperature != [] && !IsSpace(f.temperature[0])
    requires f.bpDiastolic == [] || !IsSpace(f.bpDiastolic[|f.bpDiastolic| - 1])
    ensures Trim(FormatLine(f)) == FormatLine(f)
    ensures HasSixCommas(FormatLine(f))
  {
    var line := FormatLine(f);
    FormatLineEnds(f);
    TrimPadded([], line, []);
    assert [] + line + [] == line;
    assert line[0] != ',' by {
      assert f.temperature[0] in f.temperature;
    }
    JoinCommaCount(FieldList(f));
  }

  /** A formatted reading starts with the temperature's first character and ends with a comma or the last field's last character. */
  lemma FormatLineEnds(f: Fields)
    requires f.temperature != [] && !IsSpace(f.temperature[0])
    requires f.bpDiastolic == [] || !IsSpace(f.bpDiastolic[|f.bpDiastolic| - 1])
    ensures FormatLine(f) != [] && FormatLine(f)[0] == f.temperature[0]
    ensures Trimmed(FormatLine(f))
  {
    var xs := FieldList(f);
    var line := FormatLine(f);
    assert line == f.temperature + "," + Join(xs[1..]);
    JoinLast(xs);
    var init := Join(xs[..6]);
    assert line == init + "," + f.bpDiastolic;
    assert line[|line| - 1] == if f.bpDiastolic == [] then ',' else f.bpDiastolic[|f.bpDiastolic| - 1];
  }

  /** Two readings whose first six fields hold no comma are formatted alike only if they are equal. */
  lemma FormatInjective(f: Fields, g: Fields)
    requires FirstSixCommaFree(f) && FirstSixCommaFree(g)
    requires FormatLine(f) == FormatLine(g)
    ensures f == g
  {
    var xs, ys := FieldList(f), FieldList(g);
    assert forall i :: 0 <= i < 6 ==> ',' !in xs[i] && ',' !in ys[i];
    JoinInjective(xs, ys);
    assert xs[0] == ys[0] && xs[1] == ys[1] && xs[2] == ys[2] && xs[3] == ys[3];
    assert xs[4] == ys[4] && xs[5] == ys[5] && xs[6] == ys[6];
  }

  // ---------------------------------------------------------------------------
  // The acceptance test the comment describes

  /** Every one of the six searches found a comma past index 0. */
  predicate AcceptsAllSix(t: string) {
    var c := CommaChain(t);
    forall i :: 0 <= i < 6 ==> c[i] > 0
  }

  /** Checking all six indices accepts exactly the lines with no leading comma and at least six commas. */
  lemma AcceptsAllSixIff(t: string)
    ensures AcceptsAllSix(t) <==> HasSixCommas(t)
  {
    var p := Commas(t);
    var c := CommaChain(t);
    CommasCount(t);
    if |p| >= 6 {
      ChainSixCommas(t);
      FirstCommaPositive(t);
    } else {
      ChainMatchesRef(t, |p|);
      ChainStateEarly(|p|, |p|);
      assert c[|p|] == -1;
    }
  }

  /**
   The parse with the acceptance test corrected to check all six indices: it
   accepts exactly the lines with no leading comma and at least six commas,
   and then the fields are the comma-separated pieces of the trimmed line.
   */
  function ParseLineStrict(line: string): (r: Option<Fields>)
    ensures r.Some? <==> HasSixCommas(Trim(line))
    ensures r.Some? ==> FormatLine(r.value) == Trim(line)
    ensures r.Some? ==> FirstSixCommaFree(r.value)
  {
    var t := Trim(line);
    AcceptsAllSixIff(t);
    if AcceptsAllSix(t) then
      ParseJoinRoundTrip(line);
      ParseLine(line)
    else
      None
  }

  /**
   A line with only four fields (three commas) passes the firmware's test:
   the fourth search fails, the fifth starts over, and `steps`, `bpSystolic`
   and `bpDiastolic` are cut from the start of the line again, so `steps`
   repeats the temperature text, `bpSystolic` the heart-rate text, and
   `bpDiastolic` holds a comma. The corrected test rejects the line.
   */
  lemma ThreeCommaLineAccepted(line: string)
    requires var t := Trim(line); t != [] && t[0] != ',' && multiset(t)[','] == 3
    ensures ParseLine(line).Some?
    ensures var f := ParseLine(line).value;
      f.steps == f.temperature && f.bpSystolic == f.heartRate && ',' in f.bpDiastolic
    ensures ParseLineStrict(line) == None
  {
    var t := Trim(line);
    assert |Commas(t)| == 3 by { CommasCount(t); }
    ParseLineCut(line);
    ThreeCommaCut(t);
    assert ParseLineStrict(line) == None by {
      assert !HasSixCommas(t);
    }
  }

  /**
   A line with five fields (four commas) passes the firmware's test as well:
   the fifth search fails and the sixth starts over at the first comma. The
   first five fields are then the line's five comma-separated pieces, but
   `bpSystolic` repeats the temperature text and `bpDiastolic` is everything
   after the first comma. The corrected test rejects the line.
   */
  lemma FourCommaLineAccepted(line: string)
    requires var t := Trim(line); t != [] && t[0] != ',' && multiset(t)[','] == 4
    requires |Trim(line)| < 0x8000_0000
    ensures ParseLine(line).Some?
    ensures var t, f := Trim(line), ParseLine(line).value;
      && f.temperature + "," + f.heartRate + "," + f.spo2 + "," + f.ecgStatus + "," + f.steps == t
      && ',' !in f.steps
      && f.bpSystolic == f.temperature
      && f.temperature + "," + f.bpDiastolic == t
    ensures ParseLineStrict(line) == None
  {
    var t := Trim(line);
    assert |Commas(t)| == 4 by { CommasCount(t); }
    ParseLineCut(line);
    FourCommaCut(t);
    assert ParseLineStrict(line) == None by {
      assert !HasSixCommas(t);
    }
  }

  /** An accepted line is the cut of its trimmed text at the chain's indices. */
  lemma ParseLineCut(line: string)
    requires var t := Trim(line); var n := multiset(t)[','];
      t != [] && t[0] != ',' && (n == 3 || n == 4 || n >= 6)
    ensures ParseLine(line) == Some(Cut(Trim(line), CommaChain(Trim(line))))
  {
  }

  /** The cut of a three-comma line at the chain's indices. */
  lemma ThreeCommaCut(t: string)
    requires |Commas(t)| == 3
    ensures var f := Cut(t, CommaChain(t));
      f.steps == f.temperature && f.bpSystolic == f.heartRate && ',' in f.bpDiastolic
  {
    var p := Commas(t);
    ThreeCommaChain(t);
    var a, b, d: int := p[0], p[1], p[2];
    assert CommaChain(t) == [a, b, d, -1, a, b];
    CutRestarted(t, a, b, d);
  }

  /**
   The cut at indices that run over three commas `a < b < d`, fail, and
   start over at the first two.
   */
  lemma CutRestarted(t: string, a: int, b: int, d: int)
    requires 0 <= a < b < d < |t| && t[d] == ','
    ensures var f := Cut(t, [a, b, d, -1, a, b]);
      f.steps == f.temperature && f.bpSystolic == f.heartRate && ',' in f.bpDiastolic
  {
    var f := Cut(t, [a, b, d, -1, a, b]);
    assert f.bpDiastolic == t[b + 1..];
    assert f.bpDiastolic[d - b - 1] == ',';
  }

  /** The cut of a four-comma line at the chain's indices. */
  lemma FourCommaCut(t: string)
    requires |Commas(t)| == 4 && |t| < 0x8000_0000
    ensures var f := Cut(t, CommaChain(t));
      && f.temperature + "," + f.heartRate + "," + f.spo2 + "," + f.ecgStatus + "," + f.steps == t
      && ',' !in f.steps
      && f.bpSystolic == f.temperature
      && f.temperature + "," + f.bpDiastolic == t
  {
    var p := Commas(t);
    FourCommaChain(t);
    var a, b, d, e: int := p[0], p[1], p[2], p[3];
    assert CommaChain(t) == [a, b, d, e, -1, a];
    CutFourCommas(t, a, b, d, e);
    assert GapAfter(t, p, 3);
    NoCommaSlice(t, e + 1, |t|);
    FivePieces(t, a, b, d, e);
  }

  /** A line with commas at `a < b < d < e` is its five pieces joined by commas. */
  lemma FivePieces(t: string, a: int, b: int, d: int, e: int)
    requires 0 <= a < b < d < e < |t|
    requires t[a] == ',' && t[b] == ',' && t[d] == ',' && t[e] == ','
    ensures t[..a] + "," + t[a + 1..b] + "," + t[b + 1..d] + "," + t[d + 1..e] + "," + t[e + 1..] == t
    ensures t[..a] + "," + t[a + 1..] == t
  {
    PrefixAtComma(t, a, b);
    PrefixAtComma(t, b, d);
    PrefixAtComma(t, d, e);
    PrefixAtComma(t, e, |t|);
    PrefixAtComma(t, a, |t|);
    assert t[..|t|] == t && t[e + 1..|t|] == t[e + 1..] && t[a + 1..|t|] == t[a + 1..];
  }

  /**
   The cut at indices that run over four commas `a < b < d < e`, fail, and
   start over at the first: the fifth field is the text after the fourth
   comma, and the last two are cut from the start of the line again.
   */
  lemma CutFourCommas(t: string, a: int, b: int, d: int, e: int)
    requires 0 <= a < b < d < e < |t| < 0x8000_0000
    ensures var f := Cut(t, [a, b, d, e, -1, a]);
      && f.temperature == t[..a] && f.heartRate == t[a + 1..b] && f.spo2 == t[b + 1..d]
      && f.ecgStatus == t[d + 1..e] && f.steps == t[e + 1..]
      && f.bpSystolic == t[..a] && f.bpDiastolic == t[a + 1..]
  {
    Before(t, a);
    Between(t, a, b);
    Between(t, b, d);
    Between(t, d, e);
    After(t, a);
  }

  /** The text up to `b` is the text up to the comma at `a`, the comma, and the piece after it. */
  lemma PrefixAtComma(t: string, a: int, b: int)
    requires 0 <= a < b <= |t| && t[a] == ','
    ensures t[..b] == t[..a] + "," + t[a + 1..b]
  {
  }

  /** On a line with four commas the chain is the four positions, -1, then the first again. */
  lemma FourCommaChain(t: string)
    requires |Commas(t)| == 4
    ensures var p, c := Commas(t), CommaChain(t);
      && c[0] == p[0] && c[1] == p[1] && c[2] == p[2]
      && c[3] == p[3] && c[4] == -1 && c[5] == p[0]
  {
    ChainStatesFour();
    ChainMatchesRef(t, 0);
    ChainMatchesRef(t, 1);
    ChainMatchesRef(t, 2);
    ChainMatchesRef(t, 3);
    ChainMatchesRef(t, 4);
    ChainMatchesRef(t, 5);
  }

  lemma ChainStatesFour()
    ensures ChainState(4, 0) == 0 && ChainState(4, 1) == 1 && ChainState(4, 2) == 2
    ensures ChainState(4, 3) == 3 && ChainState(4, 4) == 4 && ChainState(4, 5) == 0
  {
  }

  /** On a line with three commas the chain is the three positions, -1, then the first two again. */
  lemma ThreeCommaChain(t: string)
    requires |Commas(t)| == 3
    ensures var p, c := Commas(t), CommaChain(t);
      && c[0] == p[0] && c[1] == p[1] && c[2] == p[2]
      && c[3] == -1 && c[4] == p[0] && c[5] == p[1]
  {
    ChainStatesThree();
    ChainMatchesRef(t, 0);
    ChainMatchesRef(t, 1);
    ChainMatchesRef(t, 2);
    ChainMatchesRef(t, 3);
    ChainMatchesRef(t, 4);
    ChainMatchesRef(t, 5);
  }

  lemma ChainStatesThree()
    ensures ChainState(3, 0) == 0 && ChainState(3, 1) == 1 && ChainState(3, 2) == 2
    ensures ChainState(3, 3) == 3 && ChainState(3, 4) == 0 && ChainState(3, 5) == 1
  {
  }
}

=== FILE: sensor_payload.dfy ===
/**
 The JSON body the sensor bridge posts for an accepted line, and one pass of
 `loop()` from the received line to what happens with it.
 */
module SensorPayload {
  import opened Wrappers
  import opened ArduinoString
  import opened SensorLine
  import opened JsonText

  /**
   The Arduino numeric conversions, which this model does not look inside:
   `floatText(s)` stands for `String(s.toFloat(), 1)` and `intText(s)` for
   `String(s.toInt())`.
   */
  datatype Conversions = Conversions(floatText: string -> string, intText: string -> string)

  /** The keys of the posted object, in the order the server reads them. */
  const PayloadKeys: seq<string> :=
    ["temperature", "heartRate", "spo2", "ecgStatus", "steps", "bpSystolic", "bpDiastolic"]

  /** The key literals the firmware writes in front of each value. */
  const FirmwareKeys: seq<string> :=
    ["\"temperature\":", "\"heartRate\":", "\"spo2\":", "\"ecgStatus\":", "\"steps\":",
     "\"bpSystolic\":", "\"bpDiastolic\":"]

  /** Each firmware key literal is the key between quotes, followed by a colon. */
  lemma FirmwareKeyQuoted(k: nat)
    requires k < 7
    ensures FirmwareKeys[k] == "\"" + PayloadKeys[k] + "\":"
  {
  }

  /** The members the firmware means to send for a reading: only the ECG status is a string. */
  function PayloadMembers(f: Fields, conv: Conversions): seq<(string, JsonValue)> {
    [ ("temperature", Number(conv.floatText(f.temperature))),
      ("heartRate", Number(conv.intText(f.heartRate))),
      ("spo2", Number(conv.intText(f.spo2))),
      ("ecgStatus", Text(f.ecgStatus)),
      ("steps", Number(conv.intText(f.steps))),
      ("bpSystolic", Number(conv.intText(f.bpSystolic))),
      ("bpDiastolic", Number(conv.intText(f.bpDiastolic))) ]
  }

  /** The `jsonData` string, built piece by piece as `loop()` builds it. */
  function BuildPayload(f: Fields, conv: Conversions): (r: string)
    ensures |r| >= 2 && r[0] == '{' && r[|r| - 1] == '}'
  {
    var j0 := "{";
    var j1 := j0 + FirmwareKeys[0] + conv.floatText(f.temperature) + ",";
    var j2 := j1 + FirmwareKeys[1] + conv.intText(f.heartRate) + ",";
    var j3 := j2 + FirmwareKeys[2] + conv.intText(f.spo2) + ",";
    var j4 := j3 + FirmwareKeys[3] + "\"" + f.ecgStatus + "\",";
    var j5 := j4 + FirmwareKeys[4] + conv.intText(f.steps) + ",";
    var j6 := j5 + FirmwareKeys[5] + conv.intText(f.bpSystolic) + ",";
    var j7 := j6 + FirmwareKeys[6] + conv.intText(f.bpDiastolic);
    var j8 := j7 + "}";
    assert j8[0] == '{';
    j8
  }

  /** The members name the seven keys in the fixed order, and only the ECG status is a string. */
  lemma PayloadShape(f: Fields, conv: Conversions)
    ensures var ms := PayloadMembers(f, conv);
      && |ms| == |PayloadKeys|
      && (forall i :: 0 <= i < |ms| ==> ms[i].0 == PayloadKeys[i])
      && (forall i :: 0 <= i < |ms| ==> (ms[i].1.Text? <==> i == 3))
      && ms[3].1 == Text(f.ecgStatus)
  {
  }

  /**
   The hand-built string is the JSON object of those members, each separated
   from the next by a comma, with the ECG status quoted and copied verbatim.
   */
  lemma PayloadIsObject(f: Fields, conv: Conversions)
    ensures BuildPayload(f, conv) == WriteObject(PayloadMembers(f, conv))
  {
    var j4 := "{" + FirmwareKeys[0] + conv.floatText(f.temperature) + ","
              + FirmwareKeys[1] + conv.intText(f.heartRate) + ","
              + FirmwareKeys[2] + conv.intText(f.spo2) + ","
              + FirmwareKeys[3] + "\"" + f.ecgStatus + "\",";
    PayloadHead(f, conv);
    PayloadTail(f, conv, j4);
  }

  /** The first four members, as the firmware writes them, each followed by a comma. */
  lemma PayloadHead(f: Fields, conv: Conversions)
    ensures "{" + FirmwareKeys[0] + conv.floatText(f.temperature) + ","
            + FirmwareKeys[1] + conv.intText(f.heartRate) + ","
            + FirmwareKeys[2] + conv.intText(f.spo2) + ","
            + FirmwareKeys[3] + "\"" + f.ecgStatus + "\","
            == "{" + Members(PayloadMembers(f, conv)[..4]) + ","
  {
    var ms := PayloadMembers(f, conv);
    var j1 := "{" + FirmwareKeys[0] + conv.floatText(f.temperature) + ",";
    assert j1 == "{" + Members(ms[..1]) + ",";
    var j2 := j1 + FirmwareKeys[1] + conv.intText(f.heartRate) + ",";
    NumberStep(f, conv, 1, j1, conv.intText(f.heartRate));
    var j3 := j2 + FirmwareKeys[2] + conv.intText(f.spo2) + ",";
    NumberStep(f, conv, 2, j2, conv.intText(f.spo2));
    EcgStep(f, conv, j3);
  }

  /** A numeric member written after the first `k` extends the object by the `k`-th member. */
  lemma NumberStep(f: Fields, conv: Conversions, k: nat, acc: string, value: string)
    requires 1 <= k < 6 && k != 3
    requires acc == "{" + Members(PayloadMembers(f, conv)[..k]) + ","
    requires PayloadMembers(f, conv)[k].1 == Number(value)
    ensures acc + FirmwareKeys[k] + value + "," == "{" + Members(PayloadMembers(f, conv)[..k + 1]) + ","
  {
    FirmwareKeyQuoted(k);
    AppendMember(PayloadMembers(f, conv), k, acc, PayloadKeys[k], FirmwareKeys[k]);
  }

  /** The ECG status, written between quotes after its key, is the fourth member. */
  lemma EcgStep(f: Fields, conv: Conversions, j3: string)
    requires j3 == "{" + Members(PayloadMembers(f, conv)[..3]) + ","
    ensures j3 + FirmwareKeys[3] + "\"" + f.ecgStatus + "\"," == "{" + Members(PayloadMembers(f, conv)[..4]) + ","
  {
    var ms := PayloadMembers(f, conv);
    FirmwareKeyQuoted(3);
    QuoteSplit(j3 + FirmwareKeys[3], f.ecgStatus);
    AppendMember(ms, 3, j3, "ecgStatus", FirmwareKeys[3]);
  }

  /** The last three members and the closing brace complete the object. */
  lemma PayloadTail(f: Fields, conv: Conversions, j4: string)
    requires j4 == "{" + Members(PayloadMembers(f, conv)[..4]) + ","
    ensures j4 + FirmwareKeys[4] + conv.intText(f.steps) + ","
            + FirmwareKeys[5] + conv.intText(f.bpSystolic) + ","
            + FirmwareKeys[6] + conv.intText(f.bpDiastolic) + "}"
            == WriteObject(PayloadMembers(f, conv))
  {
    var ms := PayloadMembers(f, conv);
    var j5 := j4 + FirmwareKeys[4] + conv.intText(f.steps) + ",";
    NumberStep(f, conv, 4, j4, conv.intText(f.steps));
    var j6 := j5 + FirmwareKeys[5] + conv.intText(f.bpSystolic) + ",";
    NumberStep(f, conv, 5, j5, conv.intText(f.bpSystolic));
    assert ms[..6] == ms[..|ms| - 1];
    FirmwareKeyQuoted(6);
    CloseObject(ms, j6, "bpDiastolic", FirmwareKeys[6]);
  }

  /** `text` occurs in `s` at some position. */
  predicate Occurs(text: string, s: string) {
    exists i :: 0 <= i <= |s| && text <= s[i..]
  }

  /** The ECG status is copied into the body between quotes exactly as received. */
  lemma EcgStatusVerbatim(f: Fields, conv: Conversions)
    ensures Occurs("\"ecgStatus\":\"" + f.ecgStatus + "\"", BuildPayload(f, conv))
  {
    var j3 := "{" + FirmwareKeys[0] + conv.floatText(f.temperature) + ","
              + FirmwareKeys[1] + conv.intText(f.heartRate) + ","
              + FirmwareKeys[2] + conv.intText(f.spo2) + ",";
    var j4 := j3 + FirmwareKeys[3] + "\"" + f.ecgStatus + "\",";
    var keyQuote := FirmwareKeys[3] + "\"";
    FirmwareKeyQuoted(3);
    assert keyQuote == "\"ecgStatus\":\"";
    Assoc(j3, FirmwareKeys[3], "\"");
    OccursQuoted(j3, keyQuote, f.ecgStatus);
    var r := BuildPayload(f, conv);
    assert j4 <= r;
    OccursPrefix("\"ecgStatus\":\"" + f.ecgStatus + "\"", j4, r);
  }

  /** A quoted value written after any text occurs in the result. */
  lemma OccursQuoted(pre: string, keyQuote: string, e: string)
    ensures Occurs(keyQuote + e + "\"", pre + keyQuote + e + "\",")
  {
    var s := pre + keyQuote + e + "\",";
    var text := keyQuote + e + "\"";
    assert s[|pre|..] == text + ",";
  }

  /** What occurs in a prefix occurs in the whole. */
  lemma OccursPrefix(text: string, s: string, t: string)
    requires Occurs(text, s) && s <= t
    ensures Occurs(text, t)
  {
    var i :| 0 <= i <= |s| && text <= s[i..];
    assert t[i..][..|s| - i] == s[i..];
  }

  // ---------------------------------------------------------------------------
  // One pass of loop() for a received line

  /** What `loop()` does with a received line. */
  datatype Outcome =
    | InvalidFormat          // "Invalid data format received"
    | NotConnected           // "WiFi not connected": the reading is dropped
    | Posted(body: string)   // the JSON body handed to `http.POST`

  /**
   A line is posted only when it passes the acceptance test and WiFi is up.
   A line with no comma, or whose first comma is at index 0, is always
   rejected; a posted body is a JSON object of the parsed fields.
   */
  function HandleLine(line: string, connected: bool, conv: Conversions): (r: Outcome)
    ensures r.InvalidFormat? <==> ParseLine(line).None?
    ensures var t := Trim(line); ',' !in t || (t != [] && t[0] == ',') ==> r.InvalidFormat?
    ensures r.NotConnected? <==> ParseLine(line).Some? && !connected
    ensures r.Posted? ==> connected && r.body == WriteObject(PayloadMembers(ParseLine(line).value, conv))
  {
    match ParseLine(line)
    case None => InvalidFormat
    case Some(f) =>
      if connected then
        PayloadIsObject(f, conv);
        Posted(BuildPayload(f, conv))
      else
        NotConnected
  }
}

=== FILE: vitals.dfy ===
/**
 The server side of a health check: `HealthConditionDetector.assess_health`
 fills the missing or null vitals of the request dict with fixed defaults,
 in place, then hands the filled dict to the trained pipeline (scaler,
 decision tree, label decoder). It collapses the decoded label to "Healthy"
 or "Unhealthy". Any failure on the way is reported as "Unhealthy".

 The dict is ordered. A null feature is overwritten where it stands, and a
 missing one is appended after the request's own keys. The pipeline sees
 that order, because the one-row frame takes its columns from it.
 */
module Vitals {
  import opened Wrappers
  import opened PyDict

  /** A JSON value as the request body decodes it; an object is an ordered dict. */
  datatype Value =
    | Null
    | Bool(b: bool)
    | Int(i: int)
    | Float(x: real)
    | Str(s: string)
    | Array(items: seq<Value>)
    | Object(fields: Dict<Value>)

  /** The features the pipeline was trained on, in the order they are filled. */
  const ExpectedKeys: seq<string> :=
    ["Heart Rate", "SpO2", "Steps", "Sleep", "Calories Burnt", "Systolic_BP", "Diastolic_BP"]

  /** The value that stands in for a missing or null feature. */
  const Defaults: map<string, Value> := map[
    "Heart Rate" := Int(75),
    "SpO2" := Int(98),
    "Steps" := Int(5000),
    "Sleep" := Float(7.0),
    "Calories Burnt" := Int(2000),
    "Systolic_BP" := Int(120),
    "Diastolic_BP" := Int(80)
  ]

  /** The labels that count as a healthy outcome. */
  const HealthyLabels: set<string> := {"Healthy", "Fit", "Normal"}

  /** A feature needs its default when it is absent or explicitly null. */
  predicate NeedsDefault(d: Dict<Value>, key: string) {
    key !in Keys(d) || Get(d, key) == Null
  }

  /** A table of defaults: none of them is null. */
  predicate ValidDefaults(defs: map<string, Value>) {
    forall k :: k in defs ==> defs[k] != Null
  }

  /**
   One turn of the filling loop: `key` reads as its default if it needed one
   and is unchanged otherwise; every other key reads as before.
   */
  function FillKey(d: Dict<Value>, key: string, defs: map<string, Value>): (r: Dict<Value>)
    requires key in defs
    ensures Keys(r) == if key in Keys(d) then Keys(d) else Keys(d) + [key]
    ensures key in Keys(r) && Get(r, key) == if NeedsDefault(d, key) then defs[key] else Get(d, key)
    ensures forall k :: k != key && k in Keys(d) ==> Get(r, k) == Get(d, k)
    ensures IsDict(d) ==> IsDict(r)
  {
    if NeedsDefault(d, key) then Set(d, key, defs[key]) else d
  }

  /** The keys of `keys` that are not in `seen`, each once, in their order in `keys`. */
  function NewKeys(seen: seq<string>, keys: seq<string>): (nk: seq<string>)
    ensures forall k :: k in nk <==> k in keys && k !in seen
    decreases |keys|
  {
    if keys == [] then []
    else if keys[0] in seen then NewKeys(seen, keys[1..])
    else [keys[0]] + NewKeys(seen + [keys[0]], keys[1..])
  }

  /** A key not seen yet comes first among the new keys, and is seen from then on. */
  lemma NewKeysStep(seen: seq<string>, keys: seq<string>)
    requires keys != []
    ensures keys[0] !in seen ==>
              seen + NewKeys(seen, keys) == (seen + [keys[0]]) + NewKeys(seen + [keys[0]], keys[1..])
  {
    if keys[0] !in seen {
      assert NewKeys(seen, keys) == [keys[0]] + NewKeys(seen + [keys[0]], keys[1..]);
      AppendOne(seen, keys[0], NewKeys(seen + [keys[0]], keys[1..]));
    }
  }

  lemma AppendOne<T>(a: seq<T>, x: T, b: seq<T>)
    ensures a + ([x] + b) == (a + [x]) + b
  {
  }

  /**
   The filling loop over `keys` with the defaults `defs`. The request's keys
   keep their order, and the missing ones follow in the order of `keys`.
   What the keys read afterwards is `FillKeysValues`.
   */
  function FillKeys(d: Dict<Value>, keys: seq<string>, defs: map<string, Value>): (r: Dict<Value>)
    requires forall k :: k in keys ==> k in defs
    ensures Keys(r) == Keys(d) + NewKeys(Keys(d), keys)
    ensures IsDict(d) ==> IsDict(r)
    decreases |keys|
  {
    if keys == [] then
      assert Keys(d) + [] == Keys(d);
      d
    else
      var d' := FillKey(d, keys[0], defs);
      NewKeysStep(Keys(d), keys);
      FillKeys(d', keys[1..], defs)
  }

  /**
   After the filling loop every listed key is present and not null, a key
   that needed a default holds exactly its default, and every other key
   reads as before.
   */
  lemma {:induction false} FillKeysValues(d: Dict<Value>, keys: seq<string>, defs: map<string, Value>)
    requires ValidDefaults(defs)
    requires forall k :: k in keys ==> k in defs
    ensures var r := FillKeys(d, keys, defs);
      && (forall k :: k in keys ==> k in Keys(r) && Get(r, k) != Null)
      && (forall k :: k in keys && NeedsDefault(d, k) ==> Get(r, k) == defs[k])
      && (forall k :: k in Keys(d) && (k !in keys || Get(d, k) != Null) ==> Get(r, k) == Get(d, k))
    decreases |keys|
  {
    if keys != [] {
      var d' := FillKey(d, keys[0], defs);
      var r := FillKeys(d', keys[1..], defs);
      assert r == FillKeys(d, keys, defs);
      FillKeysValues(d', keys[1..], defs);
      assert forall k :: k in keys <==> k == keys[0] || k in keys[1..];
    }
  }

  /**
   The request dict after the seven expected features have been filled in:
   its own keys in their order, then the missing features in the order of
   `ExpectedKeys`. What the keys read is `FillValues`.
   */
  function Fill(d: Dict<Value>): (r: Dict<Value>)
    ensures Keys(r) == Keys(d) + NewKeys(Keys(d), ExpectedKeys)
    ensures IsDict(d) ==> IsDict(r)
  {
    DefaultsTable();
    FillKeys(d, ExpectedKeys, Defaults)
  }

  /**
   After filling, every feature is present and not null, a missing or null
   one holds exactly its default (75, 98, 5000, 7.0, 2000, 120 or 80), and
   every other key reads as before.
   */
  lemma FillValues(d: Dict<Value>)
    ensures forall k :: k in Defaults ==> k in Keys(Fill(d)) && Get(Fill(d), k) != Null
    ensures forall k :: k in Defaults && NeedsDefault(d, k) ==> k in Keys(Fill(d)) && Get(Fill(d), k) == Defaults[k]
    ensures forall k :: k in Keys(d) && (k !in Defaults || Get(d, k) != Null) ==> Get(Fill(d), k) == Get(d, k)
  {
    DefaultsTable();
    FillKeysValues(d, ExpectedKeys, Defaults);
  }

  /** The default table lists exactly the expected features, none of them null. */
  lemma DefaultsTable()
    ensures ValidDefaults(Defaults)
    ensures forall k :: k in ExpectedKeys <==> k in Defaults
  {
  }

  /**
   The filling loop written down entry by entry: each entry of the request,
   with a null listed key replaced by its default, followed by one entry per
   missing listed key. An independent description of `FillKeys`.
   */
  function FilledRef(d: Dict<Value>, keys: seq<string>, defs: map<string, Value>): Dict<Value>
    requires forall k :: k in keys ==> k in defs
  {
    var nk := NewKeys(Keys(d), keys);
    seq(|d|, i requires 0 <= i < |d| =>
      if d[i].0 in keys && d[i].1 == Null then (d[i].0, defs[d[i].0]) else d[i])
    + seq(|nk|, j requires 0 <= j < |nk| => assert nk[j] in nk; (nk[j], defs[nk[j]]))
  }

  /** On a dict, the filling loop gives the entry-by-entry reference. */
  lemma FillKeysMatchesRef(d: Dict<Value>, keys: seq<string>, defs: map<string, Value>)
    requires IsDict(d) && ValidDefaults(defs)
    requires forall k :: k in keys ==> k in defs
    ensures FillKeys(d, keys, defs) == FilledRef(d, keys, defs)
  {
    var r, e := FillKeys(d, keys, defs), FilledRef(d, keys, defs);
    assert |r| == |Keys(r)| == |e|;
    forall i | 0 <= i < |r|
      ensures r[i] == e[i]
    {
      FilledRefAt(d, keys, defs, i);
    }
  }

  /** One entry of the filled dict and of the reference. */
  lemma FilledRefAt(d: Dict<Value>, keys: seq<string>, defs: map<string, Value>, i: nat)
    requires IsDict(d) && ValidDefaults(defs)
    requires forall k :: k in keys ==> k in defs
    requires i < |FillKeys(d, keys, defs)|
    ensures i < |FilledRef(d, keys, defs)| && FillKeys(d, keys, defs)[i] == FilledRef(d, keys, defs)[i]
  {
    var r, e := FillKeys(d, keys, defs), FilledRef(d, keys, defs);
    var nk := NewKeys(Keys(d), keys);
    assert |r| == |Keys(r)| == |d| + |nk| == |e|;
    FillKeysValues(d, keys, defs);
    assert Keys(r)[i] == r[i].0;
    GetAt(r, i);
    if i < |d| {
      assert Keys(d)[i] == d[i].0 == r[i].0;
      GetAt(d, i);
    } else {
      assert nk[i - |d|] == r[i].0 && nk[i - |d|] in nk;
    }
  }

  /** Filling a request dict gives the entry-by-entry reference for the seven features. */
  lemma FillMatchesRef(d: Dict<Value>)
    requires IsDict(d)
    ensures Fill(d) == FilledRef(d, ExpectedKeys, Defaults)
  {
    DefaultsTable();
    FillKeysMatchesRef(d, ExpectedKeys, Defaults);
  }

  /** The filling loop changes nothing when no listed key needs a default. */
  lemma {:induction false} FillKeysNoop(d: Dict<Value>, keys: seq<string>, defs: map<string, Value>)
    requires ValidDefaults(defs)
    requires forall k :: k in keys ==> k in defs && !NeedsDefault(d, k)
    ensures FillKeys(d, keys, defs) == d
    decreases |keys|
  {
    if keys != [] {
      assert keys[0] in keys;
      assert forall k :: k in keys[1..] ==> k in keys;
      FillKeysNoop(d, keys[1..], defs);
    }
  }

  /** Filling a filled dict changes nothing: not a value and not the order. */
  lemma FillIdempotent(d: Dict<Value>)
    ensures Fill(Fill(d)) == Fill(d)
  {
    DefaultsTable();
    FillValues(d);
    FillKeysNoop(Fill(d), ExpectedKeys, Defaults);
  }

  lemma NullSameAsDefaultKeys(d: Dict<Value>, key: string, keys: seq<string>, defs: map<string, Value>)
    requires IsDict(d) && ValidDefaults(defs) && key in keys
    requires forall k :: k in keys ==> k in defs
    ensures FillKeys(Set(d, key, Null), keys, defs) == FillKeys(Set(d, key, defs[key]), keys, defs)
  {
    var a, b := Set(d, key, Null), Set(d, key, defs[key]);
    var fa, fb := FillKeys(a, keys, defs), FillKeys(b, keys, defs);
    forall k | k in Keys(fa)
      ensures Get(fa, k) == Get(fb, k)
    {
      NullDefaultAgreeAt(d, key, keys, defs, k);
    }
    DictExt(fa, fb);
  }

  /** One key of the request filled with `key` null and filled with `key` set to its default. */
  lemma NullDefaultAgreeAt(d: Dict<Value>, key: string, keys: seq<string>, defs: map<string, Value>, k: string)
    requires ValidDefaults(defs) && key in keys
    requires forall k :: k in keys ==> k in defs
    ensures var fa, fb := FillKeys(Set(d, key, Null), keys, defs), FillKeys(Set(d, key, defs[key]), keys, defs);
      k in Keys(fa) ==> Get(fa, k) == Get(fb, k)
  {
    var a, b := Set(d, key, Null), Set(d, key, defs[key]);
    var fa, fb := FillKeys(a, keys, defs), FillKeys(b, keys, defs);
    FillKeysValues(a, keys, defs);
    FillKeysValues(b, keys, defs);
    assert Keys(a) == Keys(b);
    if k == key {
      assert NeedsDefault(a, key) && !NeedsDefault(b, key);
      assert Get(fa, k) == defs[k] == Get(b, k) == Get(fb, k);
    } else if k in Keys(a) {
      assert Get(a, k) == Get(d, k) == Get(b, k);
      if k in keys && Get(d, k) == Null {
        assert NeedsDefault(a, k) && NeedsDefault(b, k);
        assert Get(fa, k) == defs[k] == Get(fb, k);
      } else {
        assert Get(fa, k) == Get(d, k) == Get(fb, k);
      }
    } else if k in keys {
      assert NeedsDefault(a, k) && NeedsDefault(b, k);
      assert Get(fa, k) == defs[k] == Get(fb, k);
    }
  }

  /**
   A feature sent as null and the same feature sent as its default fill to
   the same dict, order included: both keep the feature where it stands.
   */
  lemma NullSameAsDefault(d: Dict<Value>, key: string)
    requires IsDict(d) && key in Defaults
    ensures Fill(Set(d, key, Null)) == Fill(Set(d, key, Defaults[key]))
  {
    DefaultsTable();
    NullSameAsDefaultKeys(d, key, ExpectedKeys, Defaults);
  }

  lemma NullSameEntriesKeys(d: Dict<Value>, key: string, keys: seq<string>, defs: map<string, Value>)
    requires IsDict(d) && ValidDefaults(defs) && key in keys
    requires forall k :: k in keys ==> k in defs
    ensures ToMap(FillKeys(Set(d, key, Null), keys, defs)) == ToMap(FillKeys(Remove(d, key), keys, defs))
  {
    var ra, rm := FillKeys(Set(d, key, Null), keys, defs), FillKeys(Remove(d, key), keys, defs);
    forall k
      ensures k in Keys(ra) <==> k in Keys(rm)
      ensures k in Keys(ra) ==> Get(ra, k) == Get(rm, k)
    {
      NullMissingAgreeAt(d, key, keys, defs, k);
    }
    SameEntriesSameMap(ra, rm);
  }

  /** One key of the request filled with `key` null and filled with `key` left out. */
  lemma NullMissingAgreeAt(d: Dict<Value>, key: string, keys: seq<string>, defs: map<string, Value>, k: string)
    requires IsDict(d) && ValidDefaults(defs) && key in keys
    requires forall k :: k in keys ==> k in defs
    ensures var ra, rm := FillKeys(Set(d, key, Null), keys, defs), FillKeys(Remove(d, key), keys, defs);
      && (k in Keys(ra) <==> k in Keys(rm))
      && (k in Keys(ra) ==> Get(ra, k) == Get(rm, k))
  {
    var a, m := Set(d, key, Null), Remove(d, key);
    var ra, rm := FillKeys(a, keys, defs), FillKeys(m, keys, defs);
    FillKeysValues(a, keys, defs);
    FillKeysValues(m, keys, defs);
    if k == key {
      assert NeedsDefault(a, key) && NeedsDefault(m, key);
      assert Get(ra, k) == defs[k] == Get(rm, k);
    } else if k in Keys(d) {
      assert k in Keys(a) && k in Keys(m);
      assert Get(a, k) == Get(d, k) == Get(m, k);
      if k in keys && Get(d, k) == Null {
        assert NeedsDefault(a, k) && NeedsDefault(m, k);
        assert Get(ra, k) == defs[k] == Get(rm, k);
      } else {
        assert Get(ra, k) == Get(d, k) == Get(rm, k);
      }
    } else if k in keys {
      assert k !in Keys(a) && k !in Keys(m);
      assert NeedsDefault(a, k) && NeedsDefault(m, k);
      assert Get(ra, k) == defs[k] == Get(rm, k);
    } else {
      assert k !in Keys(a) && k !in Keys(m);
    }
  }

  /**
   A feature sent as null and the same feature left out fill to the same
   keys with the same values. The order may differ: see `MissingKeyMovesToEnd`.
   */
  lemma NullSameEntriesAsMissing(d: Dict<Value>, key: string)
    requires IsDict(d) && key in Defaults
    ensures ToMap(Fill(Set(d, key, Null))) == ToMap(Fill(Remove(d, key)))
  {
    DefaultsTable();
    NullSameEntriesKeys(d, key, ExpectedKeys, Defaults);
  }

  /**
   The order can differ. A request whose first entry is a null feature keeps
   that feature as its first column; the same request without that entry
   starts with its second key, and the feature is filled in at the end. The
   values agree (`NullSameEntriesAsMissing`), the dicts do not.
   */
  lemma MissingKeyMovesToEnd(d: Dict<Value>, key: string)
    requires IsDict(d) && 2 <= |d| && d[0] == (key, Null)
    ensures Keys(Fill(d))[0] == key
    ensures Keys(Fill(Remove(d, key)))[0] == d[1].0 != key
    ensures Fill(d) != Fill(Remove(d, key))
  {
    assert Keys(d)[0] == key && Keys(d)[1] == d[1].0;
    var m := Remove(d, key);
    assert Find(d, key) == 0;
    assert Keys(m)[0] == d[1].0;
    assert Keys(Fill(m))[0] == Keys(m)[0];
  }

  /** The decoded label collapsed to the two outcomes the server reports. */
  function Collapse(decoded: string): (r: string)
    ensures r == "Healthy" || r == "Unhealthy"
    ensures r == "Healthy" <==> decoded in HealthyLabels
  {
    if decoded in HealthyLabels then "Healthy" else "Unhealthy"
  }

  /**
   `assess_health`: `classify` is the trained pipeline applied to the filled
   dict, `None` when it raises. It sees the dict's order. A body that is not
   a JSON object makes the filling loop raise, which the handler also turns
   into "Unhealthy".
   */
  function AssessHealth(body: Value, classify: Dict<Value> -> Option<string>): (r: string)
    ensures r == "Healthy" || r == "Unhealthy"
    ensures r == "Healthy" <==>
              body.Object? && classify(Fill(body.fields)).Some? && classify(Fill(body.fields)).value in HealthyLabels
    ensures !body.Object? ==> r == "Unhealthy"
    ensures body.Object? && classify(Fill(body.fields)).None? ==> r == "Unhealthy"
  {
    if !body.Object? then "Unhealthy"
    else match classify(Fill(body.fields))
      case Some(decoded) => Collapse(decoded)
      case None => "Unhealthy"
  }

  /** The assessment of an object depends only on its filled dict, order included. */
  lemma SameFillSameAssessment(a: Dict<Value>, b: Dict<Value>, classify: Dict<Value> -> Option<string>)
    requires Fill(a) == Fill(b)
    ensures AssessHealth(Object(a), classify) == AssessHealth(Object(b), classify)
  {
  }

  /** Two objects the pipeline answers alike for get the same assessment. */
  lemma SameAnswerSameAssessment(a: Dict<Value>, b: Dict<Value>, classify: Dict<Value> -> Option<string>)
    requires classify(Fill(a)) == classify(Fill(b))
    ensures AssessHealth(Object(a), classify) == AssessHealth(Object(b), classify)
  {
  }

  /** The assessment of an object is read off the pipeline's answer for its filled dict. */
  lemma AssessFromAnswer(d: Dict<Value>, classify: Dict<Value> -> Option<string>)
    ensures AssessHealth(Object(d), classify)
         == if classify(Fill(d)).Some? then Collapse(classify(Fill(d)).value) else "Unhealthy"
  {
  }

  /** A feature sent as null or as its default gets the same assessment, whatever the pipeline does. */
  lemma AssessNullSameAsDefault(d: Dict<Value>, key: string, classify: Dict<Value> -> Option<string>)
    requires IsDict(d) && key in Defaults
    ensures AssessHealth(Object(Set(d, key, Null)), classify)
         == AssessHealth(Object(Set(d, key, Defaults[key])), classify)
  {
    NullSameAsDefault(d, key);
    SameFillSameAssessment(Set(d, key, Null), Set(d, key, Defaults[key]), classify);
  }

  /** A pipeline whose answer depends on the filled keys and values but not on their order. */
  ghost predicate OrderInsensitive(classify: Dict<Value> -> Option<string>) {
    forall a, b :: ToMap(a) == ToMap(b) ==> classify(a) == classify(b)
  }

  /**
   For a pipeline that ignores column order, a feature left out, sent as
   null or sent as its default gets the same assessment.
   */
  lemma AssessMissingSameAsNull(d: Dict<Value>, key: string, classify: Dict<Value> -> Option<string>)
    requires IsDict(d) && key in Defaults && OrderInsensitive(classify)
    ensures AssessHealth(Object(Remove(d, key)), classify) == AssessHealth(Object(Set(d, key, Null)), classify)
    ensures AssessHealth(Object(Remove(d, key)), classify)
         == AssessHealth(Object(Set(d, key, Defaults[key])), classify)
  {
    var m, a, b := Remove(d, key), Set(d, key, Null), Set(d, key, Defaults[key]);
    NullSameEntriesAsMissing(d, key);
    assert classify(Fill(m)) == classify(Fill(a));
    SameAnswerSameAssessment(m, a, classify);
    AssessNullSameAsDefault(d, key, classify);
  }

  /**
   A pipeline that raises unless the columns come in the trained order,
   as a scaler fitted on named features does, and otherwise predicts with
   `predict`. The trained order comes from the header of the training
   data, which is not part of this model; it is taken to be the order of
   `ExpectedKeys`.
   */
  function ColumnCheck(predict: Dict<Value> -> string): Dict<Value> -> Option<string> {
    d => if Keys(d) == ExpectedKeys then Some(predict(d)) else None
  }

  /**
   Under such a pipeline, a request that lists the seven features in the
   trained order is assessed from the prediction, whichever of them are
   null. The same request with "Heart Rate" left out instead is always
   "Unhealthy": the filled feature goes to the end, and the columns are out
   of order.
   */
  lemma MissingFirstFeatureUnhealthy(d: Dict<Value>, predict: Dict<Value> -> string)
    requires IsDict(d) && Keys(d) == ExpectedKeys
    ensures AssessHealth(Object(d), ColumnCheck(predict)) == Collapse(predict(Fill(d)))
    ensures AssessHealth(Object(Remove(d, "Heart Rate")), ColumnCheck(predict)) == "Unhealthy"
  {
    FullRequestKeepsOrder(d);
    AssessFromAnswer(d, ColumnCheck(predict));
    var m := Remove(d, "Heart Rate");
    MissingFirstFeatureMoves(d);
    AssessFromAnswer(m, ColumnCheck(predict));
  }

  /** A request with every feature, in the trained order, keeps that order when filled. */
  lemma FullRequestKeepsOrder(d: Dict<Value>)
    requires Keys(d) == ExpectedKeys
    ensures Keys(Fill(d)) == ExpectedKeys
  {
    var e := Keys(d);
    NoNewKeys(e, e);
    assert Keys(Fill(d)) == e + NewKeys(e, e) == e + [] == e;
  }

  /** Nothing is new when every key has been seen. */
  lemma NoNewKeys(seen: seq<string>, keys: seq<string>)
    requires forall k :: k in keys ==> k in seen
    ensures NewKeys(seen, keys) == []
  {
  }

  /** Leaving out the first feature of such a request puts the columns out of the trained order. */
  lemma MissingFirstFeatureMoves(d: Dict<Value>)
    requires IsDict(d) && Keys(d) == ExpectedKeys
    ensures Keys(Fill(Remove(d, "Heart Rate"))) != ExpectedKeys
  {
    var m := Remove(d, "Heart Rate");
    assert ExpectedKeys[0] == "Heart Rate" && "Heart Rate" in Keys(d);
    assert Keys(m)[0] != "Heart Rate";
    assert Keys(Fill(m))[0] == Keys(m)[0];
  }
}

=== FILE: wrappers.dfy ===
/** Optional values shared by the other modules. */
module Wrappers {

  /** A value that may be absent: a rejected line, a failed pipeline, a missing regex match. */
  datatype Option<+T> = None | Some(value: T)
}
